=== FILE: README.md ===
# Nimbus settings, catalog and chat core in Dafny

Nimbus is a desktop buddy. It chats with OpenAI's Responses API and keeps an
API key, a chosen model and a cached model catalog. This project models the
logic that decides which key, model and catalog are in force, and what goes
into and comes out of a chat request. It covers two places:

- **The page** (`nimbus/nimbus.js`). The page keeps its settings in local
  storage. It has:
  - an API-key input that masks a stored key behind a placeholder;
  - a model selector filled from the catalog;
  - a settings form whose submit derives the key and model and clears what a
    key change invalidates;
  - a catalog refresh that filters and sorts the provider's model ids;
  - a chat composer that puts a system preamble in front of the conversation
    and shows a friendly message when a request fails;
  - an `@mention` scanner.
- **The desktop host** (`desktop/main.js`). The host keeps a settings file.
  Of its IPC handlers, four are modelled:
  - `settings:load` and `settings:save`, which tell the renderer whether a
    key exists but never what it is;
  - `openai:fetchModels`;
  - `chat:send`, which builds the request itself and extracts the reply with
    a slightly wider extractor.

The idle-chat message cycler (`nimbus/buddy-messages.js`) is modelled too.

Everything is a pure function over immutable state:

- The page's module-level variables, the key input, the model selector, local
  storage and the visible transcript are one `PageState.Page` record.
- The host's settings cache and settings file are one `HostSettings.Host`.
- Handlers that `await` a network call are split at the `await`. There is a
  start step (guards, busy flags, the request) and a finish step that takes
  what the network returned as an `Http.Outcome` parameter: a response with a
  status and a body that parsed or did not, or a transport failure.
- Loosely shaped JSON is `Js.Json`. `Js` also defines JavaScript truthiness,
  `?.`, `??` and `String(x)`, so that each `typeof`/`?.`/`??` chain in the
  source reads the same way in the model.

| file | module | models |
|---|---|---|
| text.dfy | `Text` | `trim`, `\s`, `[\w-]`, `/gpt/i`, `Array.join`, number formatting |
| ordering.dfy | `Ordering` | the catalog's sort order and an insertion sort |
| js.dfy | `Js` | JSON values and the JavaScript operators applied to them |
| http.dfy | `Http` | response outcomes, error-detail extraction, request shape |
| catalog.dfy | `Catalog` | `data ?? models ?? []`, the id filter and sort |
| reply.dfy | `Reply` | `extractTextFromResponse`, page and host variants |
| mention.dfy | `Mention` | `findActiveMention` |
| idle.dfy | `IdleMessages` | `cycleIdleChatMessage` |
| keyfield.dfy | `KeyField` | the API-key input's states, input/toggle/blur, `resolveActiveApiKey` |
| page_state.dfy | `PageState` | page state, `populateModelOptions`, storage read/write, form sync |
| refresh.dfy | `ModelRefresh` | `refreshModels` |
| settings_form.dfy | `SettingsForm` | `handleSettingsSubmit`, `openSettings` |
| chat.dfy | `Chat` | `sendMessage`, `requestAssistantResponse` |
| host_settings.dfy | `HostSettings` | `ensureSettingsLoaded`, `settings:load`, `settings:save` |
| host_relay.dfy | `HostRelay` | `callOpenAI`, `openai:fetchModels`, `chat:send` |

In these places the model follows the code as written:

- The catalog is not deduplicated.
- On the host, `update` keeps the cached catalog when the new key is non-empty.
- On the host, `remove` keeps the chosen model; only the key and the catalog
  are cleared (`HostSettings.RemoveKeepsModel`).
- A failed send does not roll back the user's turn. The pending bubble is
  replaced by the error; nothing is added to the conversation log. A retry
  therefore sends the turn twice (`Chat.RetryAfterFailureRepeatsTurn`).
- The preamble is inserted when a request is actually made, not on every send.
- The `autopick` option of `refreshModels` never changes anything, because
  filling the selector already picks a model (`ModelRefresh.AutopickIrrelevant`).

## Model

| member | source | states |
|---|---|---|
| Text.Trim | nimbus/nimbus.js:215 | the trimmed text is an infix of the input, is empty exactly when the input is all white space, and has no white space at either end |
| Text.TrimSurrounded | desktop/main.js:314 | trimming removes exactly the white space around a core that does not itself start or end with white space |
| Text.ContainsGpt | nimbus/nimbus.js:343 | the test holds exactly when `gpt`, in any letter case, occurs at some position |
| Ordering.Sort | nimbus/nimbus.js:344 | the result is sorted and is a permutation of the input |
| Ordering.SortedUnique | nimbus/nimbus.js:344 | two sorted permutations of one list are equal, so the sorted catalog is determined by its ids |
| Catalog.GptIds | nimbus/nimbus.js:342-343 | every kept id is a string containing `gpt`, and no more ids are kept than entries given |
| Catalog.GptIdsMembers | nimbus/nimbus.js:342-343 | a string is kept exactly when some entry's `id ?? entry` is that string and contains `gpt` |
| Catalog.Models | nimbus/nimbus.js:341-344 | the catalog is sorted, holds every kept id as often as it occurs (no deduplication), and only ids containing `gpt` |
| Catalog.EntryList | nimbus/nimbus.js:340 | the list is `data` when that is an array, `models` when `data` is nullish and `models` is an array, empty when both are nullish; a non-nullish non-array in the chosen place makes `.map` throw |
| Catalog.FromBody | desktop/main.js:348-352 | a models body yields the sorted `gpt` ids of its list, or the TypeError of a list that is not an array |
| Catalog.ExampleCatalog | nimbus/nimbus.js:340-344 | an embedding model is dropped and the two GPT ids come out in ascending order |
| Reply.Extract | nimbus/nimbus.js:262-299 | a non-object gives `''`; the first of the five rules that fires gives the reply; none firing gives `''`; a falsy reply is always `''` |
| Reply.HostAgreesWithPage | desktop/main.js:257-296 | without `summary_text` blocks the host extracts exactly what the page extracts |
| Reply.HostOutputRuleWider | desktop/main.js:266-278 | whenever the page's output rule fires, the host's fires too |
| Reply.SummaryOnlyHost | desktop/main.js:271-273 | a lone `summary_text` block is a reply for the host and none for the page |
| Reply.EmptyChunkShadowsChoices | nimbus/nimbus.js:279-281 | one empty output text block makes the reply `''` although a choice carries text |
| Reply.OutputExample | nimbus/nimbus.js:265-281 | an `output_text` block's text is the reply |
| Reply.ChoiceExample | nimbus/nimbus.js:284-286 | the first choice's message content is the reply |
| Mention.FindActiveMention | nimbus/nimbus.js:584-597 | a mention is found exactly when some `@` before the caret starts the text or follows white space with only `[\w-]` after it; then it is that `@`, the query is the rest and the end is the caret |
| Mention.LastIndexOf | nimbus/nimbus.js:586 | the index is -1 or holds the character, and no later position holds it |
| Mention.EmailIsNoMention | nimbus/nimbus.js:588-589 | an `@` right after a letter opens no mention |
| Mention.EmptyQueryAtStart | nimbus/nimbus.js:585-596 | a caret right after a leading `@` opens an empty query |
| IdleMessages.CycleMessage | nimbus/buddy-messages.js:9-17 | an empty list gives no message and index 0; otherwise the message is the one at `index mod n` and the next index is its wrap-around successor, below `n` |
| IdleMessages.CycleIdleChatMessage | nimbus/buddy-messages.js:2-17 | for any index, the message at that index modulo four of the fixed list, and the following index modulo four |
| IdleMessages.CyclePeriodic | nimbus/buddy-messages.js:14-15 | indices `i` and `i + n` give the same result |
| IdleMessages.FullCycle | nimbus/buddy-messages.js:9-17 | feeding the next index back `n` times from 0 shows every message once, in order, and returns to 0 |
| KeyField.Reset | nimbus/nimbus.js:132-146 | a stored key gives the masked placeholder with the toggle enabled; none gives an empty, obscured field with the toggle disabled |
| KeyField.Input | nimbus/nimbus.js:244-255 | only a masked field still showing the placeholder stays masked; any other edit gives editing or empty by the text; the toggle is enabled when there is text or a stored key |
| KeyField.Toggle | nimbus/nimbus.js:219-242 | masked with a stored key reveals it; revealed and unchanged masks again; otherwise only the visibility flips |
| KeyField.Blur | nimbus/nimbus.js:877-881 | leaving a revealed, unchanged field masks it; anything else is kept |
| KeyField.ResolveActiveKey | nimbus/nimbus.js:210-217 | masked gives the stored key; otherwise the trimmed text, or the stored key when that is blank; empty exactly when no key is stored and nothing is typed |
| KeyField.TransitionsPreserveConsistency | nimbus/nimbus.js:219-260 | input, toggle and blur keep the field in one of the shapes a stored key allows |
| KeyField.PlaceholderOnlyWhenTyped | nimbus/nimbus.js:210-217 | the placeholder is the active key only when the user typed it |
| KeyField.RevealRoundTrip | nimbus/nimbus.js:219-233 | show then hide, or show then blur, restores the masked field, and showing displays the stored key |
| Http.ErrorDetail | nimbus/nimbus.js:327-333 | the detail is the error body's `error.message` when that is not nullish, `''` when it is nullish, and `''` when the body does not parse |
| Http.ErrorMessage | nimbus/nimbus.js:334 | a truthy detail is the message, otherwise the status fallback is |
| PageState.Populate | nimbus/nimbus.js:148-181 | no models leaves the model and disables the selector; otherwise a listed model stays selected, and an unlisted or empty one becomes the first model |
| PageState.PopulateIdempotent | nimbus/nimbus.js:148-181 | filling the selector twice with one list is the same as once |
| PageState.Persist | nimbus/nimbus.js:83-106 | storage receives the key, model and catalog, and the catalog's fingerprint becomes the key |
| PageState.ReadPersisted | nimbus/nimbus.js:67-81 | key, model and catalog become the stored ones, the fingerprint becomes the stored key, and nothing else changes |
| PageState.ReadAfterPersist | nimbus/nimbus.js:67-106 | reading storage right after writing it changes nothing |
| PageState.SyncForm | nimbus/nimbus.js:148-190 | the key field is reset for the current key and the feedback cleared; with no catalog the model is kept and the selector emptied; otherwise a listed current model stays selected, any other (or none) is replaced by the first entry, and the selector lists the catalog with the model selected |
| ModelRefresh.BeginRefresh | nimbus/nimbus.js:302-316 | a running refresh is left alone; no active key only sets the feedback; otherwise the busy flag is set and the request uses the active key |
| ModelRefresh.FetchCatalog | nimbus/nimbus.js:319-344 | a response error keeps its status; transport, parse and list errors carry none; otherwise the catalog is the filtered, sorted id list |
| ModelRefresh.FailureFeedback | nimbus/nimbus.js:379-386 | 401 and 403 say the key was rejected, 500 and above say the service is unavailable, everything else is the generic message |
| ModelRefresh.FinishRefresh | nimbus/nimbus.js:346-394 | the busy flag is cleared and only catalog, model, selector, fingerprint, storage and feedback can change; failure changes only the feedback; an empty catalog clears catalog, model and selector; a non-empty one keeps a listed model or picks the first and lists the catalog in the selector; storage is written exactly when the field still shows the stored key; for an empty catalog the fingerprint becomes the key when storage is written and is kept otherwise |
| ModelRefresh.Refresh | nimbus/nimbus.js:301-397 | a refresh that its guards stop reports failure with the guarded page; otherwise it is the completion of the request with the resolved key; the busy flag is never left set by a refresh that was not already running |
| ModelRefresh.AutopickIrrelevant | nimbus/nimbus.js:362-370 | the outcome is the same with and without auto-pick |
| ModelRefresh.BusyRefreshIsNoOp | nimbus/nimbus.js:302 | a refresh while another runs changes nothing and reports failure |
| ModelRefresh.RefreshKeepsStorageInSync | nimbus/nimbus.js:346-373 | with the field showing the stored key, storage stays in step with the page's key, model and catalog whatever the refresh does |
| ModelRefresh.RefreshThenReadBack | nimbus/nimbus.js:371-373 | after a successful refresh of a masked field, storage reads back as the page's own settings |
| SettingsForm.DeriveKey | nimbus/nimbus.js:478-490 | masked keeps the stored key, a blank field removes it, other text gives the trimmed text unless that is the placeholder |
| SettingsForm.DeriveModel | nimbus/nimbus.js:495-504 | an enabled selector gives its value; a disabled one gives `''` after a key change and the cached model otherwise |
| SettingsForm.DeriveAgreesWithResolve | nimbus/nimbus.js:478-490 | the submitted key is the active key, with two exceptions: a blank field removes the key where the active key falls back to the stored one, and an unmasked field whose trimmed text is the placeholder keeps the stored key where the active key is the placeholder text (this second case is excluded by the lemma's precondition) |
| SettingsForm.Apply | nimbus/nimbus.js:492-525 | a key change to no key or to a key the catalog was not fetched with clears catalog and model; otherwise the selector-derived model is kept when listed, replaced by the first entry when not, and kept as is with no catalog; the form is reset and storage holds the new settings; nothing else on the page changes, in particular neither busy flag nor the composer |
| SettingsForm.Submit | nimbus/nimbus.js:475-563 | the derived key is kept; removing it clears the log and closes; a key change clears the log; the catalog is fetched exactly when a key is kept and the catalog is empty or the key changed, and the panel then closes exactly when the refresh succeeds with a model; without a fetch it closes exactly when a model is set |
| SettingsForm.SubmitLeavesStorageInSync | nimbus/nimbus.js:515-525 | after every submit, storage holds the page's key, model and catalog |
| SettingsForm.ResubmitClosesQuietly | nimbus/nimbus.js:538-558 | submitting a complete, unchanged setup closes with log, model and catalog kept |
| SettingsForm.FirstKeyPicksOnlyModel | nimbus/nimbus.js:475-563 | a first key whose catalog lists one model closes the panel with that model chosen |
| SettingsForm.Open | nimbus/nimbus.js:192-202 | opening reloads storage and resets the form; a stored key without a catalog triggers a refresh that auto-picks when no model is stored, and otherwise nothing is fetched |
| Chat.WithPreamble | nimbus/nimbus.js:406-408 | the log opens with a system turn afterwards; a log that already did is unchanged, any other gets the preamble in front |
| Chat.PreambleOnce | nimbus/nimbus.js:406-408 | inserting the preamble twice is inserting it once |
| Chat.BuildRequest | nimbus/nimbus.js:410-421 | one message per turn, in order, each with its role and one `text` block carrying the turn's content |
| Chat.BeginSend | nimbus/nimbus.js:726-757 | awaiting or a blank composer is ignored; otherwise the trimmed text is appended to the log and shown after the untouched earlier bubbles; key and model are the cached ones, or the stored ones when either was missing; a request is made exactly when both are then set, and carries them with the preamble-led log; otherwise the missing-key or missing-model advisory is shown; the catalog and fingerprint are reloaded with them, and nothing else on the page (storage, busy refresh flag, field, selector, feedback) changes |
| Chat.AnswerOf | nimbus/nimbus.js:423-472 | a transport failure gives the unreachable text without status; an error status gives the body's detail or the status text with that status; an unparsable 2xx body gives its parse error without status; a truthy `error` gives its message (or the fixed text) with its numeric `code` as status; an empty reply gives the no-text error with the response status; otherwise the reply is the extracted text |
| Chat.BodyErrorCodeActsAsStatus | nimbus/nimbus.js:458-464 | a 2xx body whose `error.code` is 401 or 403 is shown as a rejected key |
| Chat.Friendly | nimbus/nimbus.js:770-778 | the shown error is never empty; 401 and 403 and 500 and above get fixed texts; otherwise the error's message or the fallback |
| Chat.FinishSend | nimbus/nimbus.js:759-788 | waiting ends; only a reply joins the log; the pending bubble, and no other, becomes the reply or the friendly error; nothing but the transcript, the log and the waiting flag changes |
| Chat.Send | nimbus/nimbus.js:726-788 | an ignored submit changes nothing, an advised one stops after the advisory, a requested one is finished by the answer; waiting always ends; the log invariant (only the preamble, in front, is a system turn) is kept |
| Chat.SendKeepsLogInvariant | nimbus/nimbus.js:406-408 | the only system turn the log ever holds is the preamble at its front |
| Chat.RequestShape | nimbus/nimbus.js:406-421 | a request starts with the preamble and ends with the user's text |
| Chat.RetryAfterFailureRepeatsTurn | nimbus/nimbus.js:735-785 | after a failed send, sending the same text again puts two identical user turns at the end of the log |
| HostSettings.FromFile | desktop/main.js:38-49 | each of key, model and models is the file's value when of the right type and its default otherwise; the skin is the file's non-empty string or `cumulus`; a missing, unparsable or null file gives all defaults |
| HostSettings.EnsureLoaded | desktop/main.js:33-55 | the file is read on first use only, and the loaded cache is served unchanged after that |
| HostSettings.ToFile | desktop/main.js:57-67 | the file holds exactly the four settings |
| HostSettings.ViewOf | desktop/main.js:300-305 | the view reports whether a key exists and never the key itself |
| HostSettings.ViewHidesKey | desktop/main.js:326-331 | two non-empty keys give the same view |
| HostSettings.Load | desktop/main.js:298-306 | loading answers with the view of the loaded cache |
| HostSettings.Apply | desktop/main.js:309-324 | `remove` clears the key, `update` with a string stores it trimmed, any other directive keeps it; model and skin change only when given as strings; no key means no catalog |
| HostSettings.Write | desktop/main.js:57-68 | without a write error the file holds exactly the four cached fields; with one the write throws that error |
| HostSettings.Save | desktop/main.js:308-332 | a null payload throws; otherwise the cache takes the applied settings, the file is written unless writing fails, and the answer is the view; the cache stays loaded |
| HostSettings.RemoveKeepsModel | desktop/main.js:311-324 | `remove` clears key and catalog and keeps the model and the skin |
| HostSettings.UpdateTrimsKey | desktop/main.js:313-314 | an `update` with a padded key stores it trimmed and keeps the catalog |
| HostSettings.FileRoundTrip | desktop/main.js:42-45 | a file written from settings with a non-empty skin reads back as the same settings |
| HostSettings.EmptySkinNotRestored | desktop/main.js:45 | a saved empty skin reads back as `cumulus` |
| HostSettings.SaveThenRestart | desktop/main.js:308-332 | after a successful save a restarted host loads what was saved, except an empty skin |
| HostRelay.Call | desktop/main.js:200-222 | transport errors pass through, an error status gives the body's detail or the status message, and an unparsable body throws its parse error |
| HostRelay.FetchKey | desktop/main.js:336-345 | the stored key when `useStoredKey` is truthy, otherwise the trimmed given string key; an empty stored key, a blank given key or a non-string one throws the no-key error, and a null payload throws |
| HostRelay.FetchModels | desktop/main.js:334-360 | key, request and catalog errors pass through with the settings as loaded; when all succeed the answer is the filtered, sorted catalog with `persisted` equal to `useStoredKey`, and a stored-key refresh stores and writes it, or throws the write error after storing it; the cache stays loaded on every path |
| HostRelay.StoredRefreshSurvivesRestart | desktop/main.js:354-357 | a catalog fetched with the stored key is what a restarted host loads, next to that key |
| HostRelay.TypedKeyRefreshStoresNothing | desktop/main.js:337-359 | a refresh with a typed key leaves the settings as loaded |
| HostRelay.BlockKind | desktop/main.js:381 | `output_text` exactly for the role `assistant`, otherwise `input_text` |
| HostRelay.ItemMessage | desktop/main.js:377-385 | the item's role, and its content as a string with a missing content sent as `''` |
| HostRelay.Messages | desktop/main.js:377-386 | the mapping succeeds exactly when no item is nullish, and then maps every item in order |
| HostRelay.ChatRequest | desktop/main.js:362-386 | no stored key throws first, then a null payload; a string model overrides the stored one and an empty result throws; otherwise the request succeeds exactly when no conversation item is nullish, and its input is the item-by-item mapping of the conversation |
| HostRelay.RequestBodyIgnoresKey | desktop/main.js:362-386 | the stored key changes only the bearer of the request, never its body |
| HostRelay.ConversationExample | desktop/main.js:377-385 | a user turn goes out as `input_text`, an assistant turn as `output_text`, a missing content as `''` |
| HostRelay.ChatSend | desktop/main.js:362-399 | the settings are only loaded; request and call errors pass through; a truthy host extraction of the body is the reply and an empty one throws |

## Left out

- desktop/preload.js is not part of this model. It only forwards IPC calls.
- DOM rendering is not modelled:
  - A bubble is a role and a text.
  - Left out: the composer's auto-resize, the mention suggestion list,
    `insertMention`, applet iframes, the tray menu, the subtitle text, the
    refresh button's label and enabled state, the key help text and the
    Show/Hide label.
  - Closing the overlay after a timeout is reduced to the `closes` flag of
    `SettingsForm.Submit`.
  - Every element is assumed present, so the `!apiKeyInput` and `!modelSelect`
    shortcuts are not modelled.
- Applet registry loading, `negotiateRealtimeAnswer` with `voice:negotiate`,
  and the Electron window, tray and lifecycle (including the window position
  arithmetic) are I/O with no core logic.
- `fetch` is replaced by an `Http.Outcome` parameter:
  - A body that fails to parse carries its parser message.
  - `error.cause`, and the `error.code` taken from an error body's `type`, are
    not modelled, because nothing reads them.
- Local storage:
  - It is typed (`PageState.Stored`).
  - Exceptions from `localStorage` are not modelled, and neither is the
    `JSON.parse` of a corrupted catalog entry.
  - The explicit `removeItem` calls before `persistSettings` in the submit
    handler are not modelled, because `persistSettings` overwrites the same
    entries right after.
- The settings file is modelled by the JSON value it holds:
  - A missing file and one that is not JSON are both `None`.
  - Formatting, `mkdir` and the ENOENT distinction (which only decides
    whether to log) are not modelled.
- HostSettings.Write: a failed write leaves the modelled file unchanged. A
  real partial write is not modelled.
- A TypeError from reading a member of `null` carries the fixed message
  `Js.NullAccess`. The real wording is the engine's.
- Numbers are integers. `Num` has no fractions, NaN or infinities.
- `localeCompare` is replaced by ordinal code-point order, which is a total
  order. The locale's collation is not modelled.
- Strings are sequences of code points, not UTF-16 code units. Caret
  positions and `lastIndexOf` differ from JavaScript only for text outside
  the Basic Multilingual Plane.
- Async interleaving is reduced to a start step and a finish step, with busy
  flags as plain state. Events that arrive between the two steps are not
  modelled.
- The "Missing API configuration" guard of `requestAssistantResponse` is left
  out. `sendMessage` only calls it with a key and a model, which
  `Chat.BeginSend` states.
- IdleMessages.CycleMessage: the index is a natural number. A negative
  JavaScript index, which gives an undefined message, is not modelled.

=== FILE: catalog.dfy ===
/** The model-list filter shared by the page's `refreshModels` and the host's
    `openai:fetchModels`: take the list under `data` (else `models`, else
    none), map each entry to `entry?.id ?? entry`, keep the string ids that
    contain `gpt` in any letter case, and sort. No deduplication is done. */
module Catalog {
  import opened Js
  import Text
  import Ordering

  /** `entry?.id ?? entry` */
  function EntryId(entry: Json): (id: Json)
    ensures entry.Obj? && "id" in entry.fields && !Nullish(entry.fields["id"]) ==> id == entry.fields["id"]
    ensures !entry.Obj? ==> id == entry
  {
    Coalesce(OptMember(entry, "id"), entry)
  }

  /** The filter predicate `typeof id === 'string' && /gpt/i.test(id)`. */
  predicate IsGptId(id: Json) {
    id.Str? && Text.ContainsGpt(id.s)
  }

  /** The kept ids, in list order. */
  function GptIds(entries: seq<Json>): (ids: seq<string>)
    ensures forall k :: 0 <= k < |ids| ==> Text.ContainsGpt(ids[k])
    ensures |ids| <= |entries|
  {
    if |entries| == 0 then []
    else
      var id := EntryId(entries[0]);
      (if IsGptId(id) then [id.s] else []) + GptIds(entries[1..])
  }

  /** The filter keeps exactly the string ids that contain `gpt`. */
  lemma {:induction false} GptIdsMembers(entries: seq<Json>, x: string)
    ensures x in GptIds(entries) <==>
              exists k :: 0 <= k < |entries| && EntryId(entries[k]) == Str(x) && Text.ContainsGpt(x)
  {
    if |entries| != 0 {
      GptIdsMembers(entries[1..], x);
      if x in GptIds(entries[1..]) {
        var k :| 0 <= k < |entries[1..]| && EntryId(entries[1..][k]) == Str(x) && Text.ContainsGpt(x);
        assert EntryId(entries[k + 1]) == Str(x);
      }
      if exists k :: 0 <= k < |entries| && EntryId(entries[k]) == Str(x) && Text.ContainsGpt(x) {
        var k :| 0 <= k < |entries| && EntryId(entries[k]) == Str(x) && Text.ContainsGpt(x);
        if k > 0 {
          assert EntryId(entries[1..][k - 1]) == Str(x);
        }
      }
    }
  }

  /** Filtering distributes over concatenation: order is kept and repeated ids
      are kept, one per occurrence. */
  lemma {:induction false} GptIdsAppend(a: seq<Json>, b: seq<Json>)
    ensures GptIds(a + b) == GptIds(a) + GptIds(b)
  {
    if |a| == 0 {
      assert a + b == b;
    } else {
      assert (a + b)[1..] == a[1..] + b;
      GptIdsAppend(a[1..], b);
    }
  }

  /** The sorted catalog for a raw entry list. */
  function Models(entries: seq<Json>): (models: seq<string>)
    ensures Ordering.Sorted(models)
    ensures multiset(models) == multiset(GptIds(entries))
    ensures forall k :: 0 <= k < |models| ==> Text.ContainsGpt(models[k])
  {
    var ids := GptIds(entries);
    var models := Ordering.Sort(ids);
    assert forall k :: 0 <= k < |models| ==> models[k] in multiset(ids);
    models
  }

  /** The message of the TypeError thrown when the list is not an array. */
  const NotAList := "list.map is not a function"

  /** `data?.data ?? data?.models ?? []`, which must be an array for `.map`. */
  function EntryList(data: Json): (r: Result<seq<Json>>)
    ensures r.Ok? <==> Coalesce(Coalesce(OptMember(data, "data"), OptMember(data, "models")), Arr([])).Arr?
    ensures Nullish(OptMember(data, "data")) && Nullish(OptMember(data, "models")) ==> r == Ok([])
    ensures OptMember(data, "data").Arr? ==> r == Ok(OptMember(data, "data").items)
    ensures !Nullish(OptMember(data, "data")) && !OptMember(data, "data").Arr? ==> r == Err(NotAList)
    ensures Nullish(OptMember(data, "data")) && OptMember(data, "models").Arr?
            ==> r == Ok(OptMember(data, "models").items)
    ensures (Nullish(OptMember(data, "data")) && !Nullish(OptMember(data, "models"))
             && !OptMember(data, "models").Arr?) ==> r == Err(NotAList)
  {
    var list := Coalesce(Coalesce(OptMember(data, "data"), OptMember(data, "models")), Arr([]));
    if list.Arr? then Ok(list.items) else Err(NotAList)
  }

  /** The catalog a models response yields, or the TypeError of a malformed body. */
  function FromBody(data: Json): (r: Result<seq<string>>)
    ensures r.Ok? <==> EntryList(data).Ok?
    ensures r.Ok? ==> Ordering.Sorted(r.value)
    ensures r.Ok? ==> multiset(r.value) == multiset(GptIds(EntryList(data).value))
    ensures r.Ok? ==> forall k :: 0 <= k < |r.value| ==> Text.ContainsGpt(r.value[k])
  {
    match EntryList(data)
    case Ok(entries) => Ok(Models(entries))
    case Err(m) => Err(m)
  }

  lemma EmbeddingIsNotGpt()
    ensures !Text.ContainsGpt("text-embed-3")
  {
    var t := "text-embed-3";
    forall i | 0 <= i && i + 3 <= |t| ensures !Text.GptAt(t, i) {
      assert t[i] != 'g' && t[i] != 'G';
    }
  }

  lemma ExampleIds()
    ensures GptIds([Str("gpt-4o"), Str("text-embed-3"), Str("gpt-3.5-turbo")]) == ["gpt-4o", "gpt-3.5-turbo"]
  {
    var entries := [Str("gpt-4o"), Str("text-embed-3"), Str("gpt-3.5-turbo")];
    assert Text.GptAt("gpt-4o", 0) && Text.GptAt("gpt-3.5-turbo", 0);
    EmbeddingIsNotGpt();
    assert entries[1..][1..][1..] == [];
    assert GptIds(entries[1..][1..]) == ["gpt-3.5-turbo"];
    assert GptIds(entries[1..]) == ["gpt-3.5-turbo"];
  }

  lemma ExampleSorted()
    ensures Ordering.Sorted(["gpt-3.5-turbo", "gpt-4o"])
  {
    var e := ["gpt-3.5-turbo", "gpt-4o"];
    Ordering.LeqAtFirstDifference(e[0], e[1], 4);
  }

  lemma ExampleModels(entries: seq<Json>)
    requires entries == [Str("gpt-4o"), Str("text-embed-3"), Str("gpt-3.5-turbo")]
    ensures Models(entries) == ["gpt-3.5-turbo", "gpt-4o"]
  {
    ExampleIds();
    ExampleSorted();
    var expected := ["gpt-3.5-turbo", "gpt-4o"];
    var ids := GptIds(entries);
    assert ids == ["gpt-4o", "gpt-3.5-turbo"];
    assert multiset(expected) == multiset(ids);
    var m := Models(entries);
    Ordering.SortedUnique(m, expected);
  }

  /** The worked example: an embedding model is dropped and the rest sorted. */
  lemma ExampleCatalog(body: Json)
    requires body == Obj(map["data" := Arr([Str("gpt-4o"), Str("text-embed-3"), Str("gpt-3.5-turbo")])])
    ensures FromBody(body) == Ok(["gpt-3.5-turbo", "gpt-4o"])
  {
    var entries := [Str("gpt-4o"), Str("text-embed-3"), Str("gpt-3.5-turbo")];
    assert EntryList(body) == Ok(entries);
    ExampleModels(entries);
  }
}

=== FILE: chat.dfy ===
/** `sendMessage` and `requestAssistantResponse`: one chat turn, split at the
    `await` into the synchronous start (guards, transcript, preamble, request)
    and the completion that shows the reply or a friendly error. */
module Chat {
  import opened Js
  import Text
  import Http
  import Reply
  import opened PageState

  const NeedKey := "Add your OpenAI API key in the settings panel to send messages."
  const NeedModel := "Choose an OpenAI model from the settings panel before chatting."
  const Contacting := "Nimbus is contacting OpenAI…"
  const Unreachable := "Nimbus could not reach OpenAI. Check your connection and try again."
  const ReportedError := "OpenAI reported an error."
  const NoText := "OpenAI did not return any text for this request."
  const Fallback := "Something went wrong talking to OpenAI."
  const Rejected := "OpenAI rejected Nimbus' API request. Double-check your API key in the settings overlay."
  const Trouble := "OpenAI is having trouble right now. Try again in a moment."

  /** How a submit of the composer starts: ignored, answered locally with an
      advisory bubble, or with a request in flight whose pending bubble sits
      at index `pending`. */
  datatype Start =
    | Ignored
    | Advised(page: Page)
    | Requested(page: Page, request: Http.Request, pending: nat)

  /** A thrown error: its message and its numeric `status`, if it has one. */
  datatype Failure = Failure(message: string, status: Option<int>)

  /** What `requestAssistantResponse` settles to. */
  datatype Answer = Answered(reply: Json) | Failed(failure: Failure)

  function RoleName(r: Role): string {
    match r
    case System => "system"
    case User => "user"
    case Assistant => "assistant"
  }

  /** The system preamble is put in front of the log unless the log already
      opens with a system turn. */
  function WithPreamble(log: seq<Turn>): (r: seq<Turn>)
    ensures |r| > 0 && r[0].role == System
    ensures |log| > 0 && log[0].role == System ==> r == log
    ensures !(|log| > 0 && log[0].role == System) ==> r == [Turn(System, Str(SystemMessage))] + log
  {
    if |log| > 0 && log[0].role == System then log
    else [Turn(System, Str(SystemMessage))] + log
  }

  /** The request body's `input`: each turn as one message with a single
      `text` block carrying the turn's content. */
  function ToMessage(t: Turn): Http.Message {
    Http.Message(Str(RoleName(t.role)), [Http.Block("text", t.content)])
  }

  function BuildRequest(key: string, model: string, log: seq<Turn>): (r: Http.Request)
    ensures r.key == key && r.model == model && |r.input| == |log|
    ensures forall i :: 0 <= i < |log| ==>
              && r.input[i].role == Str(RoleName(log[i].role))
              && r.input[i].content == [Http.Block("text", log[i].content)]
  {
    Http.Request(key, model, seq(|log|, i requires 0 <= i < |log| => ToMessage(log[i])))
  }

  /** Key and model are available, possibly only after re-reading storage. */
  predicate Configured(p: Page) {
    if p.key != "" && p.model != "" then true
    else p.storage.apiKey != "" && p.storage.model != ""
  }

  /** The synchronous part of `sendMessage`. */
  function BeginSend(p: Page): (s: Start)
    ensures s.Ignored? <==> p.awaiting || Text.AllSpace(p.composer)
    ensures s.Requested? <==> !p.awaiting && !Text.AllSpace(p.composer) && Configured(p)
    ensures !s.Ignored? ==>
              && |s.page.log| >= |p.log| + 1
              && s.page.log[|s.page.log| - 1] == Turn(User, Str(Text.Trim(p.composer)))
              && s.page.composer == ""
              && |s.page.bubbles| == |p.bubbles| + 2
              && s.page.bubbles[|p.bubbles|] == Bubble(User, Text.Trim(p.composer))
              && s.page.bubbles[..|p.bubbles|] == p.bubbles
              && s.page.key == (if p.key != "" && p.model != "" then p.key else p.storage.apiKey)
              && s.page.model == (if p.key != "" && p.model != "" then p.model else p.storage.model)
              && s.page.models == (if p.key != "" && p.model != "" then p.models else p.storage.models)
              && s.page.fingerprint == (if p.key != "" && p.model != "" then p.fingerprint else p.storage.apiKey)
              && s.page == p.(key := s.page.key, model := s.page.model, models := s.page.models,
                              fingerprint := s.page.fingerprint, log := s.page.log, bubbles := s.page.bubbles,
                              composer := "", awaiting := s.page.awaiting)
    ensures s.Advised? ==>
              && !s.page.awaiting
              && s.page.log == p.log + [Turn(User, Str(Text.Trim(p.composer)))]
              && s.page.bubbles[|p.bubbles| + 1] == Bubble(System, if s.page.key == "" then NeedKey else NeedModel)
    ensures s.Requested? ==>
              && s.request.key != "" && s.request.model != ""
              && s.request.key == s.page.key && s.request.model == s.page.model
              && s.page.awaiting
              && s.page.log == WithPreamble(p.log + [Turn(User, Str(Text.Trim(p.composer)))])
              && s.request == BuildRequest(s.page.key, s.page.model, s.page.log)
              && s.pending == |p.bubbles| + 1
              && s.page.bubbles[s.pending] == Bubble(Assistant, Contacting)
  {
    if p.awaiting then Ignored
    else
      var text := Text.Trim(p.composer);
      if text == "" then Ignored
      else
        var q := p.(bubbles := p.bubbles + [Bubble(User, text)], log := p.log + [Turn(User, Str(text))], composer := "");
        var q := if q.key == "" || q.model == "" then ReadPersisted(q) else q;
        if q.key == "" then Advised(q.(bubbles := q.bubbles + [Bubble(System, NeedKey)]))
        else if q.model == "" then Advised(q.(bubbles := q.bubbles + [Bubble(System, NeedModel)]))
        else
          var log := WithPreamble(q.log);
          var q := q.(bubbles := q.bubbles + [Bubble(Assistant, Contacting)], awaiting := true, log := log);
          Requested(q, BuildRequest(q.key, q.model, log), |q.bubbles| - 1)
  }

  /** What the request settles to, given how the fetch went. */
  function AnswerOf(outcome: Http.Outcome): (a: Answer)
    ensures outcome.Transport? ==> a == Failed(Failure(Unreachable, None))
    ensures outcome.Response? && !Http.IsOk(outcome.status) ==>
              a == Failed(Failure(Http.ErrorMessage(Http.ErrorDetail(outcome.body),
                                                    "OpenAI responded with status " + Text.IntToString(outcome.status)),
                                  Some(outcome.status)))
    ensures a.Answered? <==> && outcome.Response? && Http.IsOk(outcome.status) && outcome.body.Parsed?
                             && !Truthy(OptMember(outcome.body.json, "error"))
                             && Truthy(Reply.PageExtract(outcome.body.json))
    ensures a.Answered? ==> a.reply == Reply.PageExtract(outcome.body.json)
    ensures (outcome.Response? && Http.IsOk(outcome.status) && outcome.body.Unparseable?) ==>
              a == Failed(Failure(outcome.body.message, None))
    ensures (outcome.Response? && Http.IsOk(outcome.status) && outcome.body.Parsed?
             && Truthy(OptMember(outcome.body.json, "error"))) ==>
              var error := OptMember(outcome.body.json, "error");
              a == Failed(Failure(ToJsString(Coalesce(OptMember(error, "message"), Str(ReportedError))),
                                  if OptMember(error, "code").Num? then Some(OptMember(error, "code").n) else None))
    ensures (outcome.Response? && Http.IsOk(outcome.status) && outcome.body.Parsed?
             && !Truthy(OptMember(outcome.body.json, "error"))
             && !Truthy(Reply.PageExtract(outcome.body.json))) ==>
              a == Failed(Failure(NoText, Some(outcome.status)))
  {
    match outcome
    case Transport(_) => Failed(Failure(Unreachable, None))
    case Response(status, body) =>
      if !Http.IsOk(status) then
        Failed(Failure(Http.ErrorMessage(Http.ErrorDetail(body), "OpenAI responded with status " + Text.IntToString(status)),
                       Some(status)))
      else match body
        case Unparseable(message) => Failed(Failure(message, None))
        case Parsed(data) =>
          var error := OptMember(data, "error");
          if Truthy(error) then
            var message := Coalesce(OptMember(error, "message"), Str(ReportedError));
            var code := OptMember(error, "code");
            Failed(Failure(ToJsString(message), if code.Num? then Some(code.n) else None))
          else
            var reply := Reply.PageExtract(data);
            if !Truthy(reply) then Failed(Failure(NoText, Some(status)))
            else Answered(reply)
  }

  /** The text shown in place of the pending bubble when the request fails. */
  function Friendly(f: Failure): (m: string)
    ensures m != ""
    ensures f.status == Some(401) || f.status == Some(403) ==> m == Rejected
    ensures f.status.Some? && f.status.value != 401 && f.status.value != 403 && f.status.value >= 500 ==> m == Trouble
    ensures (f.status.None? || (f.status.value != 401 && f.status.value != 403 && f.status.value < 500))
            ==> m == (if f.message != "" then f.message else Fallback)
  {
    var base := if f.message != "" then f.message else Fallback;
    match f.status
    case None => base
    case Some(s) =>
      if s == 401 || s == 403 then Rejected
      else if s >= 500 then Trouble
      else base
  }

  /** The completion of `sendMessage`: the pending bubble becomes the reply or
      the friendly error, only a reply joins the log, and the page stops
      waiting either way. */
  function FinishSend(p: Page, pending: nat, outcome: Http.Outcome): (q: Page)
    ensures !q.awaiting
    ensures AnswerOf(outcome).Answered? ==> q.log == p.log + [Turn(Assistant, AnswerOf(outcome).reply)]
    ensures AnswerOf(outcome).Failed? ==> q.log == p.log
    ensures pending < |p.bubbles| ==> |q.bubbles| == |p.bubbles|
    ensures pending < |p.bubbles| ==> forall i :: 0 <= i < |p.bubbles| && i != pending ==> q.bubbles[i] == p.bubbles[i]
    ensures pending < |p.bubbles| && AnswerOf(outcome).Failed? ==>
              q.bubbles[pending] == Bubble(System, Friendly(AnswerOf(outcome).failure))
    ensures pending < |p.bubbles| && AnswerOf(outcome).Answered? ==>
              q.bubbles[pending] == Bubble(Assistant, ToJsString(AnswerOf(outcome).reply))
    ensures q.key == p.key && q.model == p.model && q.storage == p.storage
    ensures q == p.(bubbles := q.bubbles, log := q.log, awaiting := false)
  {
    var answer := AnswerOf(outcome);
    var bubble := match answer
      case Answered(reply) => Bubble(Assistant, ToJsString(reply))
      case Failed(f) => Bubble(System, Friendly(f));
    var bubbles := if pending < |p.bubbles| then p.bubbles[pending := bubble] else p.bubbles + [bubble];
    var log := if answer.Answered? then p.log + [Turn(Assistant, answer.reply)] else p.log;
    p.(bubbles := bubbles, log := log, awaiting := false)
  }

  /** One whole `sendMessage`, with the request answered by `outcome`. */
  function Send(p: Page, outcome: Http.Outcome): (q: Page)
    ensures !p.awaiting ==> !q.awaiting
    ensures BeginSend(p).Ignored? ==> q == p
    ensures BeginSend(p).Advised? ==> q == BeginSend(p).page
    ensures BeginSend(p).Requested? ==> q == FinishSend(BeginSend(p).page, BeginSend(p).pending, outcome)
    ensures LogInvariant(p.log) ==> LogInvariant(q.log)
  {
    var q := match BeginSend(p)
      case Ignored => p
      case Advised(q) => q
      case Requested(q, _, pending) => FinishSend(q, pending, outcome);
    if LogInvariant(p.log) then SendKeepsLogInvariant(p, outcome); q else q
  }

  /** An error object in a successful response that carries a numeric code of
      401 or 403 is shown as a rejected key, exactly as an HTTP status would be. */
  lemma BodyErrorCodeActsAsStatus(outcome: Http.Outcome, code: int)
    requires outcome.Response? && Http.IsOk(outcome.status) && outcome.body.Parsed?
    requires Truthy(OptMember(outcome.body.json, "error"))
    requires OptMember(OptMember(outcome.body.json, "error"), "code") == Num(code)
    requires code == 401 || code == 403
    ensures Friendly(AnswerOf(outcome).failure) == Rejected
  {
  }

  /** The preamble is inserted at most once. */
  lemma PreambleOnce(log: seq<Turn>)
    ensures WithPreamble(WithPreamble(log)) == WithPreamble(log)
    ensures |WithPreamble(log)| <= |log| + 1
  {
  }

  const Preamble := Turn(System, Str(SystemMessage))

  /** The only system turn the log can hold is the preamble, in front. */
  predicate LogInvariant(log: seq<Turn>) {
    forall i :: 0 <= i < |log| && log[i].role == System ==> i == 0 && log[i] == Preamble
  }

  /** Appending a non-system turn keeps the log invariant. */
  lemma AppendKeepsLogInvariant(log: seq<Turn>, t: Turn)
    requires LogInvariant(log) && t.role != System
    ensures LogInvariant(log + [t])
  {
    var appended := log + [t];
    forall i | 0 <= i < |appended| && appended[i].role == System
      ensures i == 0 && appended[i] == Preamble
    {
      assert appended[i] == log[i];
    }
  }

  /** Inserting the preamble keeps the log invariant. */
  lemma PreambleKeepsLogInvariant(log: seq<Turn>)
    requires LogInvariant(log)
    ensures LogInvariant(WithPreamble(log))
  {
    var r := WithPreamble(log);
    if r != log {
      forall i | 0 < i < |r|
        ensures r[i].role != System
      {
        assert r[i] == log[i - 1];
      }
    }
  }

  /** Starting and finishing a send keep the log invariant. */
  lemma SendKeepsLogInvariant(p: Page, outcome: Http.Outcome)
    requires LogInvariant(p.log)
    ensures !BeginSend(p).Ignored? ==> LogInvariant(BeginSend(p).page.log)
    ensures BeginSend(p).Requested? ==>
              LogInvariant(FinishSend(BeginSend(p).page, BeginSend(p).pending, outcome).log)
  {
    var s := BeginSend(p);
    if !s.Ignored? {
      var appended := p.log + [Turn(User, Str(Text.Trim(p.composer)))];
      AppendKeepsLogInvariant(p.log, Turn(User, Str(Text.Trim(p.composer))));
      if s.Requested? {
        PreambleKeepsLogInvariant(appended);
        var a := AnswerOf(outcome);
        if a.Answered? {
          AppendKeepsLogInvariant(s.page.log, Turn(Assistant, a.reply));
        }
      }
    }
  }

  /** Under the log invariant, a request carries the preamble first and the
      user's text last. */
  lemma RequestShape(p: Page)
    requires BeginSend(p).Requested? && LogInvariant(p.log)
    ensures var r := BeginSend(p).request;
            && |r.input| >= 2
            && r.input[0] == Http.Message(Str("system"), [Http.Block("text", Str(SystemMessage))])
            && r.input[|r.input| - 1] == Http.Message(Str("user"), [Http.Block("text", Str(Text.Trim(p.composer)))])
  {
    var s := BeginSend(p);
    var log := s.page.log;
    assert |log| >= 2;
    if p.log != [] && p.log[0].role == System {
      assert log[0] == p.log[0];
    }
  }

  /** A failed request leaves the user's turn in the log, so sending the same
      text again puts it in the request twice in a row. */
  lemma RetryAfterFailureRepeatsTurn(p: Page, outcome: Http.Outcome, again: Http.Outcome)
    requires BeginSend(p).Requested? && AnswerOf(outcome).Failed?
    ensures var q := Send(p, outcome);
            var text := Text.Trim(p.composer);
            BeginSend(q.(composer := p.composer)).Requested?
            && var log := BeginSend(q.(composer := p.composer)).page.log;
               |log| >= 2 && log[|log| - 2] == Turn(User, Str(text)) && log[|log| - 1] == Turn(User, Str(text))
  {
  }
}

=== FILE: host_relay.dfy ===
/** The desktop host's provider relay: `callOpenAI` and the
    `openai:fetchModels` and `chat:send` handlers. The provider's answer is a
    parameter; the key never leaves the host except in the request. */
module HostRelay {
  import opened Js
  import Text
  import Http
  import Catalog
  import Reply
  import opened HostSettings

  const NoKeyToRefresh := "No API key available to refresh models."
  const NoKeyToChat := "Add an API key in settings before chatting."
  const NoModel := "Select a model in settings before chatting."
  const NoText := "OpenAI did not return any text for this request."

  /** What `openai:fetchModels` resolves with. */
  datatype Fetched = Fetched(models: seq<string>, persisted: bool)

  /** `callOpenAI`: the parsed body of a successful response, or the message
      of what it throws. */
  function Call(outcome: Http.Outcome): (r: Result<Json>)
    ensures outcome.Transport? ==> r == Err(outcome.message)
    ensures outcome.Response? && !Http.IsOk(outcome.status) ==>
              r == Err(Http.ErrorMessage(Http.ErrorDetail(outcome.body),
                                         "OpenAI responded with " + Text.IntToString(outcome.status)))
    ensures outcome.Response? && Http.IsOk(outcome.status) && outcome.body.Unparseable? ==>
              r == Err(outcome.body.message)
    ensures r.Ok? <==> outcome.Response? && Http.IsOk(outcome.status) && outcome.body.Parsed?
    ensures r.Ok? ==> r.value == outcome.body.json
  {
    match outcome
    case Transport(message) => Err(message)
    case Response(status, body) =>
      if !Http.IsOk(status) then
        Err(Http.ErrorMessage(Http.ErrorDetail(body), "OpenAI responded with " + Text.IntToString(status)))
      else match body
        case Unparseable(message) => Err(message)
        case Parsed(data) => Ok(data)
  }

  /** An omitted payload defaults to `{}`. */
  function Given(payload: Json): (p: Json)
    ensures payload.Undef? ==> p == Obj(map[])
    ensures !payload.Undef? ==> p == payload
  {
    if payload.Undef? then Obj(map[]) else payload
  }

  /** The key `openai:fetchModels` would call with: the stored key when
      `useStoredKey` is truthy, otherwise the trimmed `apiKey` string. */
  function FetchKey(s: Settings, payload: Json): (r: Result<string>)
    ensures payload.Null? ==> r == Err(NullAccess)
    ensures !payload.Null? && Truthy(OptMember(Given(payload), "useStoredKey"))
            ==> r == (if s.apiKey == "" then Err(NoKeyToRefresh) else Ok(s.apiKey))
    ensures !payload.Null? && !Truthy(OptMember(Given(payload), "useStoredKey"))
            && OptMember(Given(payload), "apiKey").Str?
            ==> r == (if Text.AllSpace(OptMember(Given(payload), "apiKey").s) then Err(NoKeyToRefresh)
                      else Ok(Text.Trim(OptMember(Given(payload), "apiKey").s)))
    ensures (!payload.Null? && !Truthy(OptMember(Given(payload), "useStoredKey"))
             && !OptMember(Given(payload), "apiKey").Str?) ==> r == Err(NoKeyToRefresh)
    ensures r.Ok? ==> r.value != ""
    ensures r.Err? && !payload.Null? ==> r.message == NoKeyToRefresh
  {
    if payload.Null? then Err(NullAccess)
    else
      var p := Given(payload);
      var given := OptMember(p, "apiKey");
      var key :=
        if Truthy(OptMember(p, "useStoredKey")) then s.apiKey
        else if given.Str? then Text.Trim(given.s)
        else "";
      if key == "" then Err(NoKeyToRefresh) else Ok(key)
  }

  function AsJson(models: seq<string>): (js: seq<Json>)
    ensures |js| == |models| && forall i :: 0 <= i < |models| ==> js[i] == Str(models[i])
  {
    seq(|models|, i requires 0 <= i < |models| => Str(models[i]))
  }

  /** `openai:fetchModels`, the catalog request answered by `outcome`. Only a
      refresh with the stored key writes the catalog to the settings. */
  function FetchModels(h: Host, payload: Json, outcome: Http.Outcome, writeError: Option<string>): (r: Handled<Fetched>)
    ensures var loaded := EnsureLoaded(h);
            FetchKey(loaded.settings, payload).Err? ==> r == Handled(loaded, Err(FetchKey(loaded.settings, payload).message))
    ensures r.result.Ok? ==>
              && Call(outcome).Ok? && Catalog.FromBody(Call(outcome).value) == Ok(r.result.value.models)
              && (r.result.value.persisted <==> Truthy(OptMember(Given(payload), "useStoredKey")))
    ensures r.result.Ok? && r.result.value.persisted ==>
              && r.host.settings == EnsureLoaded(h).settings.(models := AsJson(r.result.value.models))
              && r.host.disk == Some(ToFile(r.host.settings))
    ensures !(r.result.Ok? && r.result.value.persisted) ==> r.host.disk == h.disk
    ensures !Truthy(OptMember(Given(payload), "useStoredKey")) ==> r.host == EnsureLoaded(h)
    ensures r.host.loaded
    ensures var loaded := EnsureLoaded(h);
            FetchKey(loaded.settings, payload).Ok? && Call(outcome).Err? ==>
              r == Handled(loaded, Err(Call(outcome).message))
    ensures var loaded := EnsureLoaded(h);
            (FetchKey(loaded.settings, payload).Ok? && Call(outcome).Ok?
             && Catalog.FromBody(Call(outcome).value).Err?) ==>
              r == Handled(loaded, Err(Catalog.FromBody(Call(outcome).value).message))
    ensures var loaded := EnsureLoaded(h);
            var use := Truthy(OptMember(Given(payload), "useStoredKey"));
            (FetchKey(loaded.settings, payload).Ok? && Call(outcome).Ok?
             && Catalog.FromBody(Call(outcome).value).Ok? && (!use || writeError.None?)) ==>
              r.result == Ok(Fetched(Catalog.FromBody(Call(outcome).value).value, use))
    ensures var loaded := EnsureLoaded(h);
            var use := Truthy(OptMember(Given(payload), "useStoredKey"));
            (FetchKey(loaded.settings, payload).Ok? && Call(outcome).Ok?
             && Catalog.FromBody(Call(outcome).value).Ok? && use && writeError.Some?) ==>
              && r.result == Err(writeError.value)
              && r.host == loaded.(settings := loaded.settings.(models := AsJson(Catalog.FromBody(Call(outcome).value).value)))
  {
    var loaded := EnsureLoaded(h);
    match FetchKey(loaded.settings, payload)
    case Err(e) => Handled(loaded, Err(e))
    case Ok(key) =>
      match Call(outcome)
      case Err(e) => Handled(loaded, Err(e))
      case Ok(data) =>
        match Catalog.FromBody(data)
        case Err(e) => Handled(loaded, Err(e))
        case Ok(models) =>
          if Truthy(OptMember(Given(payload), "useStoredKey")) then
            var updated := loaded.(settings := loaded.settings.(models := AsJson(models)));
            match Write(updated, writeError)
            case Ok(written) => Handled(written, Ok(Fetched(models, true)))
            case Err(e) => Handled(updated, Err(e))
          else Handled(loaded, Ok(Fetched(models, false)))
  }

  /** The content block kind for a conversation item's role. */
  function BlockKind(role: Json): (kind: string)
    ensures kind == "output_text" <==> role == Str("assistant")
    ensures kind == "output_text" || kind == "input_text"
  {
    if role == Str("assistant") then "output_text" else "input_text"
  }

  /** One conversation item as sent: its role, and its content as a string. */
  function ItemMessage(item: Json): (m: Http.Message)
    requires !Nullish(item)
    ensures m.role == OptMember(item, "role")
    ensures m.content == [Http.Block(BlockKind(m.role), Str(ToJsString(Coalesce(OptMember(item, "content"), Str("")))))]
  {
    var role := OptMember(item, "role");
    Http.Message(role, [Http.Block(BlockKind(role), Str(ToJsString(Coalesce(OptMember(item, "content"), Str("")))))])
  }

  /** `conversation.map(...)`, which throws on the first nullish item. */
  function Messages(items: seq<Json>): (r: Result<seq<Http.Message>>)
    ensures r.Ok? <==> forall i :: 0 <= i < |items| ==> !Nullish(items[i])
    ensures r.Ok? ==> |r.value| == |items| && forall i :: 0 <= i < |items| ==> r.value[i] == ItemMessage(items[i])
    ensures r.Err? ==> r.message == NullAccess
  {
    if items == [] then Ok([])
    else if Nullish(items[0]) then Err(NullAccess)
    else match Messages(items[1..])
      case Err(e) => Err(e)
      case Ok(rest) =>
        assert forall i :: 1 <= i < |items| ==> items[i] == items[1..][i - 1];
        Ok([ItemMessage(items[0])] + rest)
  }

  /** The model `chat:send` asks for: a string `model` of the payload, else
      the stored model. */
  function ChatModel(s: Settings, payload: Json): (model: string)
    ensures OptMember(Given(payload), "model").Str? ==> model == OptMember(Given(payload), "model").s
    ensures !OptMember(Given(payload), "model").Str? ==> model == s.model
  {
    var given := OptMember(Given(payload), "model");
    if given.Str? then given.s else s.model
  }

  /** The payload's `conversation` when it is an array, else no items. */
  function Conversation(payload: Json): (items: seq<Json>)
    ensures OptMember(Given(payload), "conversation").Arr? ==>
              items == OptMember(Given(payload), "conversation").items
    ensures !OptMember(Given(payload), "conversation").Arr? ==> items == []
  {
    var conversation := OptMember(Given(payload), "conversation");
    if conversation.Arr? then conversation.items else []
  }

  /** The request `chat:send` makes, or what it throws before making one. */
  function ChatRequest(s: Settings, payload: Json): (r: Result<Http.Request>)
    ensures s.apiKey == "" ==> r == Err(NoKeyToChat)
    ensures s.apiKey != "" && payload.Null? ==> r == Err(NullAccess)
    ensures s.apiKey != "" && !payload.Null? && ChatModel(s, payload) == "" ==> r == Err(NoModel)
    ensures (s.apiKey != "" && !payload.Null? && ChatModel(s, payload) != "") ==>
              && (r.Ok? <==> Messages(Conversation(payload)).Ok?)
              && (r.Err? ==> r.message == NullAccess)
    ensures r.Ok? ==> r.value.input == Messages(Conversation(payload)).value
    ensures r.Ok? ==> && r.value.key == s.apiKey && r.value.key != "" && r.value.model != ""
    ensures r.Ok? && OptMember(Given(payload), "model").Str? ==> r.value.model == OptMember(Given(payload), "model").s
    ensures r.Ok? && !OptMember(Given(payload), "model").Str? ==> r.value.model == s.model
    ensures r.Ok? && OptMember(Given(payload), "conversation").Arr? ==>
              |r.value.input| == |OptMember(Given(payload), "conversation").items|
    ensures r.Ok? && !OptMember(Given(payload), "conversation").Arr? ==> r.value.input == []
  {
    if s.apiKey == "" then Err(NoKeyToChat)
    else if payload.Null? then Err(NullAccess)
    else
      var model := ChatModel(s, payload);
      if model == "" then Err(NoModel)
      else
        match Messages(Conversation(payload))
        case Err(e) => Err(e)
        case Ok(input) => Ok(Http.Request(s.apiKey, model, input))
  }

  /** `chat:send`, the request answered by `outcome`: the extracted reply, or
      the error. The settings are only loaded, never changed. */
  function ChatSend(h: Host, payload: Json, outcome: Http.Outcome): (r: Handled<Json>)
    ensures r.host == EnsureLoaded(h)
    ensures ChatRequest(EnsureLoaded(h).settings, payload).Err? ==>
              r.result == Err(ChatRequest(EnsureLoaded(h).settings, payload).message)
    ensures r.result.Ok? ==> && Call(outcome).Ok? && Truthy(r.result.value)
                             && r.result.value == Reply.HostExtract(Call(outcome).value)
    ensures (ChatRequest(EnsureLoaded(h).settings, payload).Ok? && Call(outcome).Ok?
             && !Truthy(Reply.HostExtract(Call(outcome).value))) ==> r.result == Err(NoText)
    ensures (ChatRequest(EnsureLoaded(h).settings, payload).Ok? && Call(outcome).Ok?
             && Truthy(Reply.HostExtract(Call(outcome).value))) ==>
              r.result == Ok(Reply.HostExtract(Call(outcome).value))
    ensures ChatRequest(EnsureLoaded(h).settings, payload).Ok? && Call(outcome).Err? ==>
              r.result == Err(Call(outcome).message)
  {
    var loaded := EnsureLoaded(h);
    match ChatRequest(loaded.settings, payload)
    case Err(e) => Handled(loaded, Err(e))
    case Ok(_) =>
      match Call(outcome)
      case Err(e) => Handled(loaded, Err(e))
      case Ok(data) =>
        var reply := Reply.HostExtract(data);
        if !Truthy(reply) then Handled(loaded, Err(NoText)) else Handled(loaded, Ok(reply))
  }

  /** Which key is stored changes only the request's bearer, never its body. */
  lemma RequestBodyIgnoresKey(s: Settings, payload: Json, otherKey: string)
    requires s.apiKey != "" && otherKey != ""
    ensures var a := ChatRequest(s, payload);
            var b := ChatRequest(s.(apiKey := otherKey), payload);
            a.Ok? == b.Ok? && (a.Ok? ==> a.value.(key := otherKey) == b.value)
  {
  }

  /** A refresh with a typed key leaves the host's settings as loaded. */
  lemma TypedKeyRefreshStoresNothing(h: Host, key: string, outcome: Http.Outcome, writeError: Option<string>)
    ensures var payload := Obj(map["apiKey" := Str(key)]);
            var r := FetchModels(h, payload, outcome, writeError);
            r.host == EnsureLoaded(h) && (r.result.Ok? ==> !r.result.value.persisted)
  {
  }

  /** A catalog fetched with the stored key is what a restarted host loads,
      next to the key it was fetched with. */
  lemma StoredRefreshSurvivesRestart(h: Host, payload: Json, outcome: Http.Outcome)
    requires Truthy(OptMember(Given(payload), "useStoredKey"))
    requires FetchModels(h, payload, outcome, None).result.Ok?
    ensures var r := FetchModels(h, payload, outcome, None);
            var restarted := EnsureLoaded(Host(Defaults, false, r.host.disk)).settings;
            && r.result.value.persisted
            && restarted.models == AsJson(r.result.value.models)
            && restarted.apiKey == EnsureLoaded(h).settings.apiKey
            && FetchKey(EnsureLoaded(h).settings, payload) == Ok(restarted.apiKey)
  {
  }

  /** An assistant turn goes out as `output_text` and any other as
      `input_text`, with a missing content sent as the empty string. */
  lemma ConversationExample(items: seq<Json>)
    requires items == [Obj(map["role" := Str("user"), "content" := Str("hi")]),
                       Obj(map["role" := Str("assistant")])]
    ensures Messages(items) == Ok([Http.Message(Str("user"), [Http.Block("input_text", Str("hi"))]),
                                   Http.Message(Str("assistant"), [Http.Block("output_text", Str(""))])])
  {
    var m0 := Http.Message(Str("user"), [Http.Block("input_text", Str("hi"))]);
    var m1 := Http.Message(Str("assistant"), [Http.Block("output_text", Str(""))]);
    assert ItemMessage(items[0]) == m0;
    assert ItemMessage(items[1]) == m1;
    var tail := items[1..];
    assert tail[0] == items[1] && !Nullish(tail[0]);
    assert tail[1..] == [];
    assert Messages(tail[1..]) == Ok([]);
    assert [ItemMessage(tail[0])] + [] == [ItemMessage(items[1])];
    assert Messages(tail) == Ok([ItemMessage(items[1])]);
    assert !Nullish(items[0]);
    assert Messages(items) == Ok([ItemMessage(items[0])] + [ItemMessage(items[1])]);
    assert [ItemMessage(items[0])] + [ItemMessage(items[1])] == [m0, m1];
  }
}

=== FILE: host_settings.dfy ===
/** The desktop host's settings store: the in-memory cache, its lazy load from
    the settings file, and the `settings:load` and `settings:save` handlers.
    The file is modelled by the JSON value it holds. */
module HostSettings {
  import opened Js
  import Text

  const DefaultSkin := "cumulus"

  datatype Settings = Settings(apiKey: string, model: string, models: seq<Json>, skin: string)

  const Defaults := Settings("", "", [], DefaultSkin)

  /** The cache, whether it has been loaded, and the settings file's contents
      (`None` when the file is missing or is not JSON). */
  datatype Host = Host(settings: Settings, loaded: bool, disk: Option<Json>)

  /** What a handler leaves behind and what it resolves or rejects with. */
  datatype Handled<+T> = Handled(host: Host, result: Result<T>)

  /** What the renderer is told about the settings: never the key itself. */
  datatype View = View(hasApiKey: bool, model: string, models: seq<Json>, skin: string)

  /** The settings a file yields: every field of the wrong type falls back to
      its default, and so does the whole record when the file is missing, is
      not JSON, or holds `null`. */
  function FromFile(disk: Option<Json>): (s: Settings)
    ensures s.skin != ""
    ensures disk.None? || Nullish(disk.value) ==> s == Defaults
    ensures disk.Some? && OptMember(disk.value, "apiKey").Str? ==> s.apiKey == OptMember(disk.value, "apiKey").s
    ensures disk.Some? && !OptMember(disk.value, "apiKey").Str? ==> s.apiKey == ""
    ensures disk.Some? && OptMember(disk.value, "models").Arr? ==> s.models == OptMember(disk.value, "models").items
    ensures disk.Some? && !OptMember(disk.value, "models").Arr? ==> s.models == []
    ensures disk.Some? && !Nullish(disk.value) ==>
              s.model == (if OptMember(disk.value, "model").Str? then OptMember(disk.value, "model").s else "")
    ensures disk.Some? && !Nullish(disk.value) ==>
              s.skin == (if OptMember(disk.value, "skin").Str? && OptMember(disk.value, "skin").s != ""
                         then OptMember(disk.value, "skin").s else DefaultSkin)
  {
    match disk
    case None => Defaults
    case Some(parsed) =>
      if Nullish(parsed) then Defaults
      else
        var apiKey := OptMember(parsed, "apiKey");
        var model := OptMember(parsed, "model");
        var models := OptMember(parsed, "models");
        var skin := OptMember(parsed, "skin");
        Settings(
          if apiKey.Str? then apiKey.s else "",
          if model.Str? then model.s else "",
          if models.Arr? then models.items else [],
          if skin.Str? && skin.s != "" then skin.s else DefaultSkin)
  }

  /** The JSON value `persistSettingsCache` writes. */
  function ToFile(s: Settings): (j: Json)
    ensures OptMember(j, "apiKey") == Str(s.apiKey) && OptMember(j, "model") == Str(s.model)
    ensures OptMember(j, "models") == Arr(s.models) && OptMember(j, "skin") == Str(s.skin)
  {
    Obj(map["apiKey" := Str(s.apiKey), "model" := Str(s.model), "models" := Arr(s.models), "skin" := Str(s.skin)])
  }

  /** `ensureSettingsLoaded`: read the file once, then serve the cache. */
  function EnsureLoaded(h: Host): (r: Host)
    ensures r.loaded && r.disk == h.disk
    ensures h.loaded ==> r == h
    ensures !h.loaded ==> r.settings == FromFile(h.disk)
  {
    if h.loaded then h else Host(FromFile(h.disk), true, h.disk)
  }

  /** `persistSettingsCache`, which fails with `writeError` when the directory
      or the file cannot be written. */
  function Write(h: Host, writeError: Option<string>): (r: Result<Host>)
    ensures writeError.None? ==> r == Ok(h.(disk := Some(ToFile(h.settings))))
    ensures writeError.Some? ==> r == Err(writeError.value)
  {
    match writeError
    case None => Ok(h.(disk := Some(ToFile(h.settings))))
    case Some(e) => Err(e)
  }

  function ViewOf(s: Settings): (v: View)
    ensures v.hasApiKey <==> s.apiKey != ""
    ensures v.model == s.model && v.models == s.models && v.skin == s.skin
  {
    View(s.apiKey != "", s.model, s.models, s.skin)
  }

  /** `settings:load`. */
  function Load(h: Host): (r: Handled<View>)
    ensures r.host == EnsureLoaded(h) && r.result == Ok(ViewOf(r.host.settings))
  {
    var loaded := EnsureLoaded(h);
    Handled(loaded, Ok(ViewOf(loaded.settings)))
  }

  /** The settings after applying a save payload: `remove` clears the key,
      `update` with a string key stores it trimmed, a string model or skin is
      taken as given, and a missing key drops the cached catalog. */
  function Apply(s: Settings, payload: Json): (r: Settings)
    requires !Nullish(payload)
    ensures OptMember(payload, "keyDirective") == Str("remove") ==> r.apiKey == ""
    ensures OptMember(payload, "keyDirective") == Str("update") && OptMember(payload, "apiKey").Str?
            ==> r.apiKey == Text.Trim(OptMember(payload, "apiKey").s)
    ensures OptMember(payload, "keyDirective") != Str("remove")
            && !(OptMember(payload, "keyDirective") == Str("update") && OptMember(payload, "apiKey").Str?)
            ==> r.apiKey == s.apiKey
    ensures r.model == (if OptMember(payload, "model").Str? then OptMember(payload, "model").s else s.model)
    ensures r.skin == (if OptMember(payload, "skin").Str? then OptMember(payload, "skin").s else s.skin)
    ensures r.models == (if r.apiKey == "" then [] else s.models)
  {
    var directive := OptMember(payload, "keyDirective");
    var givenKey := OptMember(payload, "apiKey");
    var key :=
      if directive == Str("remove") then ""
      else if directive == Str("update") && givenKey.Str? then Text.Trim(givenKey.s)
      else s.apiKey;
    var model := OptMember(payload, "model");
    var skin := OptMember(payload, "skin");
    Settings(
      key,
      if model.Str? then model.s else s.model,
      if key == "" then [] else s.models,
      if skin.Str? then skin.s else s.skin)
  }

  /** `settings:save`. An omitted payload is `{}`; `null` throws. The cache is
      changed even when writing the file then fails. */
  function Save(h: Host, payload: Json, writeError: Option<string>): (r: Handled<View>)
    ensures payload.Null? ==> r == Handled(EnsureLoaded(h), Err(NullAccess))
    ensures !payload.Null? ==>
              r.host.settings == Apply(EnsureLoaded(h).settings, if payload.Undef? then Obj(map[]) else payload)
    ensures r.result.Ok? <==> !payload.Null? && writeError.None?
    ensures r.result.Ok? ==> r.host.disk == Some(ToFile(r.host.settings)) && r.result.value == ViewOf(r.host.settings)
    ensures r.result.Err? ==> r.host.disk == h.disk
    ensures r.host.loaded
  {
    var loaded := EnsureLoaded(h);
    if payload.Null? then Handled(loaded, Err(NullAccess))
    else
      var given := if payload.Undef? then Obj(map[]) else payload;
      var updated := loaded.(settings := Apply(loaded.settings, given));
      match Write(updated, writeError)
      case Ok(written) => Handled(written, Ok(ViewOf(written.settings)))
      case Err(e) => Handled(updated, Err(e))
  }

  /** Loading is done once. */
  lemma EnsureLoadedIdempotent(h: Host)
    ensures EnsureLoaded(EnsureLoaded(h)) == EnsureLoaded(h)
  {
  }

  /** The view depends on the key only through whether there is one. */
  lemma ViewHidesKey(s: Settings, otherKey: string)
    requires s.apiKey != "" && otherKey != ""
    ensures ViewOf(s.(apiKey := otherKey)) == ViewOf(s)
  {
  }

  /** A file written from settings with a skin reads back as those settings. */
  lemma FileRoundTrip(s: Settings)
    requires s.skin != ""
    ensures FromFile(Some(ToFile(s))) == s
  {
  }

  /** The one field a save can set that does not survive a restart: an empty
      skin, which reads back as the default. */
  lemma EmptySkinNotRestored(s: Settings)
    requires s.skin == ""
    ensures FromFile(Some(ToFile(s))) == s.(skin := DefaultSkin)
  {
  }

  /** After a successful save, a restarted host loads what was saved, unless
      the save set the skin to the empty string. */
  lemma SaveThenRestart(h: Host, payload: Json)
    requires Save(h, payload, None).result.Ok?
    ensures var saved := Save(h, payload, None).host;
            var restarted := EnsureLoaded(Host(Defaults, false, saved.disk)).settings;
            restarted == (if saved.settings.skin == "" then saved.settings.(skin := DefaultSkin) else saved.settings)
  {
    var saved := Save(h, payload, None).host;
    if saved.settings.skin == "" {
      EmptySkinNotRestored(saved.settings);
    } else {
      FileRoundTrip(saved.settings);
    }
  }

  /** Removing the key keeps the chosen model but drops the catalog. */
  lemma RemoveKeepsModel(s: Settings)
    ensures var r := Apply(s, Obj(map["keyDirective" := Str("remove")]));
            r.apiKey == "" && r.models == [] && r.model == s.model && r.skin == s.skin
  {
  }

  lemma PaddedKey(k: string)
    requires k == " sk-new "
    ensures Text.Trim(k) == "sk-new"
  {
    assert k == " " + "sk-new" + " ";
    Text.TrimSurrounded(" ", "sk-new", " ");
  }

  /** Updating with a padded key stores it trimmed and keeps the catalog. */
  lemma UpdateTrimsKey(s: Settings, payload: Json)
    requires payload == Obj(map["keyDirective" := Str("update"), "apiKey" := Str(" sk-new ")])
    ensures var r := Apply(s, payload);
            r.apiKey == "sk-new" && r.models == s.models && r.model == s.model
  {
    PaddedKey(" sk-new ");
  }
}

=== FILE: http.dfy ===
/** What a call to the provider can come back with, as seen by the code that
    awaits it: a response with a status and a body that does or does not
    parse as JSON, or a transport failure before any response. */
module Http {
  import opened Js

  datatype Body = Parsed(json: Json) | Unparseable(message: string)

  datatype Outcome =
    | Response(status: int, body: Body)
    | Transport(message: string)

  /** `response.ok` */
  predicate IsOk(status: int) {
    200 <= status <= 299
  }

  /** `payload?.error?.message ?? ''` of an error body; `''` when it does not parse. */
  function ErrorDetail(body: Body): (detail: Json)
    ensures body.Unparseable? ==> detail == Str("")
    ensures (body.Parsed? && !Nullish(OptMember(OptMember(body.json, "error"), "message")))
            ==> detail == OptMember(OptMember(body.json, "error"), "message")
    ensures (body.Parsed? && Nullish(OptMember(OptMember(body.json, "error"), "message")))
            ==> detail == Str("")
  {
    match body
    case Parsed(j) => Coalesce(OptMember(OptMember(j, "error"), "message"), Str(""))
    case Unparseable(_) => Str("")
  }

  /** The message of an error built as `new Error(detail || fallback)`. */
  function ErrorMessage(detail: Json, fallback: string): (m: string)
    ensures Truthy(detail) ==> m == ToJsString(detail)
    ensures !Truthy(detail) ==> m == fallback
  {
    if Truthy(detail) then ToJsString(detail) else fallback
  }

  /** One content block of a Responses API input message. */
  datatype Block = Block(kind: string, text: Json)

  /** One input message: its role as sent and its content blocks. */
  datatype Message = Message(role: Json, content: seq<Block>)

  /** A request to the Responses endpoint: the bearer key, the model and the
      input messages. */
  datatype Request = Request(key: string, model: string, input: seq<Message>)
}

=== FILE: idle.dfy ===
/** The idle-chat message cycler: the message for an index and the index to
    ask for next, wrapping around the list. */
module IdleMessages {
  import opened Js

  /** The messages the buddy cycles through while the chat is closed. */
  const IdleChatMessages: seq<string> := [
    "Nimbus just saw a cloud that looks like you. Want to hear about it?",
    "If you need me, I am hovering nearby!",
    "Should we explore an applet together soon?",
    "Nimbus is stretching their wings. Need anything while I am here?"
  ]

  datatype Cycle = Cycle(message: Option<string>, nextIndex: nat)

  /** `cycleIdleChatMessage` over an arbitrary message list. */
  function CycleMessage(messages: seq<string>, index: nat): (c: Cycle)
    ensures |messages| == 0 <==> c.message.None?
    ensures |messages| == 0 ==> c.nextIndex == 0
    ensures |messages| > 0 ==> c.nextIndex < |messages|
    ensures |messages| > 0 ==> c.message == Some(messages[index % |messages|])
    ensures |messages| > 0 ==> c.nextIndex == if index % |messages| + 1 == |messages| then 0 else index % |messages| + 1
  {
    if |messages| == 0 then Cycle(None, 0)
    else
      var n := |messages|;
      var safe := index % n;
      Cycle(Some(messages[safe]), (safe + 1) % n)
  }

  /** `cycleIdleChatMessage` of buddy-messages.js, over its fixed list. */
  function CycleIdleChatMessage(index: nat): (c: Cycle)
    ensures c.message == Some(IdleChatMessages[index % 4])
    ensures c.nextIndex == (index % 4 + 1) % 4
  {
    CycleMessage(IdleChatMessages, index)
  }

  /** Indices that differ by the list length give the same result. */
  lemma {:induction false} CyclePeriodic(messages: seq<string>, index: nat)
    ensures CycleMessage(messages, index + |messages|) == CycleMessage(messages, index)
  {
    if |messages| > 0 {
      ModShift(index, |messages|);
    }
  }

  lemma {:induction false} MulAtLeast(k: nat, n: nat)
    requires k >= 1
    ensures k * n >= n
    decreases k
  {
    if k > 1 {
      MulAtLeast(k - 1, n);
      assert k * n == (k - 1) * n + n;
    }
  }

  /** Euclidean division has one remainder. */
  lemma ModUnique(a: nat, n: nat, q: nat, r: nat)
    requires n > 0 && r < n && a == q * n + r
    ensures a % n == r
  {
    var q2 := a / n;
    var r2 := a % n;
    assert q2 * n + r2 == q * n + r;
    if q2 > q {
      MulAtLeast(q2 - q, n);
    } else if q > q2 {
      MulAtLeast(q - q2, n);
    }
  }

  lemma ModShift(i: nat, n: nat)
    requires n > 0
    ensures (i + n) % n == i % n
  {
    var q := i / n;
    var r := i % n;
    assert i + n == (q + 1) * n + r;
    ModUnique(i + n, n, q + 1, r);
  }

  /** The messages seen, and the index reached, when the returned index is fed
      back `steps` times starting from `index`. */
  function Walk(messages: seq<string>, index: nat, steps: nat): (w: (seq<string>, nat))
    ensures |w.0| == if |messages| == 0 then 0 else steps
    decreases steps
  {
    if steps == 0 then ([], index)
    else
      var c := CycleMessage(messages, index);
      var rest := Walk(messages, c.nextIndex, steps - 1);
      (if c.message.Some? then [c.message.value] + rest.0 else rest.0, rest.1)
  }

  lemma {:induction false} WalkSuffix(messages: seq<string>, index: nat, steps: nat)
    requires index + steps <= |messages|
    requires index < |messages|
    ensures Walk(messages, index, steps).0 == messages[index..index + steps]
    ensures Walk(messages, index, steps).1 == (index + steps) % |messages|
    decreases steps
  {
    var n := |messages|;
    assert index % n == index;
    if steps > 0 {
      var c := CycleMessage(messages, index);
      assert c.message == Some(messages[index]);
      if index + 1 < n {
        assert c.nextIndex == index + 1;
        WalkSuffix(messages, index + 1, steps - 1);
        assert messages[index..index + steps] == [messages[index]] + messages[index + 1..index + steps];
      } else {
        assert c.nextIndex == 0 && steps == 1;
        assert n % n == 0;
        assert Walk(messages, 0, 0) == ([], 0);
      }
    }
  }

  /** Starting at 0, feeding the returned index back once per message shows
      every message once, in list order, and comes back to index 0. */
  lemma FullCycle(messages: seq<string>)
    requires |messages| > 0
    ensures Walk(messages, 0, |messages|) == (messages, 0)
  {
    var n := |messages|;
    WalkSuffix(messages, 0, n);
    assert messages[0..n] == messages;
    assert n % n == 0;
  }
}

=== FILE: js.dfy ===
/** Loosely shaped JSON values as the JavaScript core sees them, together with
    the handful of language operations the core applies to them: truthiness,
    optional member access (`?.`), plain member access (`.`, which throws on
    `null`/`undefined`), nullish coalescing (`??`) and `String(x)`. */
module Js {
  import Text

  /** A JavaScript value as it arrives from `JSON.parse` or over IPC.
      `Undef` is `undefined`; numbers are integers only (see README). */
  datatype Json =
    | Undef
    | Null
    | Bool(b: bool)
    | Num(n: int)
    | Str(s: string)
    | Arr(items: seq<Json>)
    | Obj(fields: map<string, Json>)

  /** JavaScript truthiness: `undefined`, `null`, `false`, `0` and `''` are falsy. */
  predicate Truthy(j: Json) {
    match j
    case Undef => false
    case Null => false
    case Bool(b) => b
    case Num(n) => n != 0
    case Str(s) => s != ""
    case Arr(_) => true
    case Obj(_) => true
  }

  predicate Nullish(j: Json) {
    j.Undef? || j.Null?
  }

  /** `a ?? b` */
  function Coalesce(a: Json, b: Json): (r: Json)
    ensures !Nullish(a) ==> r == a
    ensures Nullish(a) ==> r == b
  {
    if Nullish(a) then b else a
  }

  /** `j?.k`: `undefined` for a nullish receiver or a missing key; primitives and
      arrays carry none of the keys the core reads. */
  function OptMember(j: Json, k: string): (r: Json)
    ensures j.Obj? && k in j.fields ==> r == j.fields[k]
    ensures !(j.Obj? && k in j.fields) ==> r == Undef
  {
    match j
    case Obj(m) => if k in m then m[k] else Undef
    case _ => Undef
  }

  /** `j[i]` on an array, `undefined` past its end or on a non-array. */
  function At(j: Json, i: nat): (r: Json)
    ensures j.Arr? && i < |j.items| ==> r == j.items[i]
    ensures !(j.Arr? && i < |j.items|) ==> r == Undef
  {
    if j.Arr? && i < |j.items| then j.items[i] else Undef
  }

  datatype Option<+T> = None | Some(value: T)

  /** The message of the TypeError a member read on `null` throws; its exact
      wording belongs to the engine. */
  const NullAccess := "Cannot read properties of null"

  /** The outcome of a step that may throw: the value, or the thrown error's
      message. */
  datatype Result<+T> = Ok(value: T) | Err(message: string)

  /** `String(j)`. Array elements that are nullish print as the empty string
      and are separated by commas, as `Array.prototype.join` does. */
  function ToJsString(j: Json): string
    decreases j
  {
    match j
    case Undef => "undefined"
    case Null => "null"
    case Bool(b) => if b then "true" else "false"
    case Num(n) => Text.IntToString(n)
    case Str(s) => s
    case Arr(items) =>
      Text.Join(seq(|items|, i requires 0 <= i < |items| =>
                      if Nullish(items[i]) then "" else ToJsString(items[i])), ",")
    case Obj(_) => "[object Object]"
  }
}

=== FILE: keyfield.dfy ===
/** The API-key input of the settings panel as a state machine. The field is
    `Masked` (a stored key exists and the placeholder is shown), `Revealed`
    (the stored key is shown in clear), `Editing` (the user typed something)
    or `Empty`. The field decides which key every save, refresh and send
    uses, through `ResolveActiveKey`. */
module KeyField {
  import Text

  /** The placeholder shown in place of a stored key: twelve bullets. */
  const MaskedKeyValue: string := "\U{2022}\U{2022}\U{2022}\U{2022}\U{2022}\U{2022}\U{2022}\U{2022}\U{2022}\U{2022}\U{2022}\U{2022}"

  datatype KeyState = Masked | Revealed | Editing | Empty

  /** The input's state tag, its text, whether it is shown in clear
      (`type="text"`) and whether the show/hide button is enabled. */
  datatype Field = Field(state: KeyState, text: string, shown: bool, toggleEnabled: bool)

  /** The masked look: placeholder text, obscured, button enabled. */
  const MaskedField: Field := Field(Masked, MaskedKeyValue, false, true)

  /** `resetApiKeyField`: masked when a key is stored, otherwise empty with the
      button disabled. */
  function Reset(stored: string): (f: Field)
    ensures stored != "" ==> f == MaskedField
    ensures stored == "" ==> f == Field(Empty, "", false, false)
  {
    if stored != "" then MaskedField else Field(Empty, "", false, false)
  }

  /** `handleApiKeyInput`, after the user changed the text to `text`. Only a
      masked field whose text is still the placeholder stays masked; every
      other edit, even one that restores the revealed key, leaves the
      field `Editing` or `Empty`. */
  function Input(f: Field, text: string, stored: string): (r: Field)
    ensures f.state == Masked && text == MaskedKeyValue ==> r.state == Masked
    ensures f.state != Masked || text != MaskedKeyValue ==> r.state == (if text != "" then Editing else Empty)
    ensures r.text == text && r.shown == f.shown
    ensures r.toggleEnabled <==> text != "" || stored != ""
  {
    var state :=
      if f.state == Masked && text != MaskedKeyValue then (if text != "" then Editing else Empty)
      else if f.state == Revealed && text != stored then (if text != "" then Editing else Empty)
      else if f.state != Masked then (if text != "" then Editing else Empty)
      else f.state;
    Field(state, text, f.shown, text != "" || stored != "")
  }

  /** `handleApiKeyToggle`. A disabled button receives no clicks. */
  function Toggle(f: Field, stored: string): (r: Field)
    ensures !f.toggleEnabled ==> r == f
    ensures f.toggleEnabled && stored != "" && f.state == Masked ==> r == Field(Revealed, stored, true, true)
    ensures f.toggleEnabled && stored != "" && f.state == Revealed && f.text == stored ==> r == MaskedField
    ensures (f.toggleEnabled && !(stored != "" && f.state == Masked)
             && !(stored != "" && f.state == Revealed && f.text == stored)) ==> r == f.(shown := !f.shown)
  {
    if !f.toggleEnabled then f
    else if stored != "" && f.state == Masked then Field(Revealed, stored, true, f.toggleEnabled)
    else if stored != "" && f.state == Revealed && f.text == stored then MaskedField
    else f.(shown := !f.shown)
  }

  /** The blur handler: a revealed field still showing the stored key is masked again. */
  function Blur(f: Field, stored: string): (r: Field)
    ensures f.state == Revealed && f.text == stored ==> r == MaskedField
    ensures !(f.state == Revealed && f.text == stored) ==> r == f
  {
    if f.state == Revealed && f.text == stored then MaskedField else f
  }

  /** `resolveActiveApiKey`: the stored key while masked, otherwise the trimmed
      text, falling back to the stored key when that is blank. */
  function ResolveActiveKey(f: Field, stored: string): (key: string)
    ensures f.state == Masked ==> key == stored
    ensures f.state != Masked && !Text.AllSpace(f.text) ==> key == Text.Trim(f.text) && key != ""
    ensures f.state != Masked && Text.AllSpace(f.text) ==> key == stored
    ensures key == "" <==> stored == "" && (f.state == Masked || Text.AllSpace(f.text))
  {
    if f.state == Masked then stored
    else
      var candidate := Text.Trim(f.text);
      if candidate != "" then candidate else stored
  }

  /** The shapes the field can take for a fixed stored key. */
  predicate Consistent(f: Field, stored: string) {
    && (f.state == Masked ==> f == MaskedField && stored != "")
    && (f.state == Revealed ==> f.text == stored && stored != "" && f.shown && f.toggleEnabled)
    && (f.state == Empty ==> f.text == "")
    && (f.state == Editing ==> f.text != "")
    && (f.toggleEnabled <==> f.text != "" || stored != "")
  }

  lemma ResetConsistent(stored: string)
    ensures Consistent(Reset(stored), stored)
  {
  }

  /** Input, toggle and blur keep the field consistent with the stored key. */
  lemma TransitionsPreserveConsistency(f: Field, stored: string, text: string)
    requires Consistent(f, stored)
    ensures Consistent(Input(f, text, stored), stored)
    ensures Consistent(Toggle(f, stored), stored)
    ensures Consistent(Blur(f, stored), stored)
  {
  }

  /** Outside `Editing` the active key is the stored key, up to surrounding
      white space: the placeholder is never resolved unless the user typed it. */
  lemma ResolveOutsideEditing(f: Field, stored: string)
    requires Consistent(f, stored) && f.state != Editing
    ensures ResolveActiveKey(f, stored) == stored || ResolveActiveKey(f, stored) == Text.Trim(stored)
  {
    if f.state == Empty {
      assert Text.AllSpace(f.text);
    }
  }

  lemma PlaceholderOnlyWhenTyped(f: Field, stored: string)
    requires Consistent(f, stored)
    requires stored != MaskedKeyValue && Text.Trim(stored) != MaskedKeyValue
    requires ResolveActiveKey(f, stored) == MaskedKeyValue
    ensures f.state == Editing && Text.Trim(f.text) == MaskedKeyValue
  {
    if f.state != Editing {
      ResolveOutsideEditing(f, stored);
    }
  }

  /** Show then hide, or show then leave the field, restores the masked field. */
  lemma RevealRoundTrip(stored: string)
    requires stored != ""
    ensures Toggle(Toggle(MaskedField, stored), stored) == MaskedField
    ensures Blur(Toggle(MaskedField, stored), stored) == MaskedField
    ensures Toggle(MaskedField, stored).text == stored
  {
  }

  /** With no stored key there is nothing to reveal: the toggle only switches
      the visibility of what was typed. */
  lemma NoRevealWithoutKey(f: Field)
    ensures Toggle(f, "").state == f.state && Toggle(f, "").text == f.text
  {
  }
}

=== FILE: mention.dfy ===
/** `findActiveMention`: the `@query` being typed just before the caret, if any.
    The mention starts at the last `@` before the caret; it is active when that
    `@` opens the text or follows white space, and every character between it
    and the caret is in `[\w-]`. */
module Mention {
  import opened Js
  import Text

  datatype Mention = Mention(query: string, start: nat, end: nat)

  /** `value.slice(0, cursor)`, which clamps the cursor to the text. */
  function UpToCursor(value: string, cursor: nat): (r: string)
    ensures |r| <= |value| && r == value[..|r|]
    ensures cursor <= |value| ==> |r| == cursor
  {
    if cursor <= |value| then value[..cursor] else value
  }

  /** `s.lastIndexOf(c)`. */
  function LastIndexOf(s: string, c: char): (i: int)
    ensures -1 <= i < |s|
    ensures 0 <= i ==> s[i] == c
    ensures forall k :: i < k < |s| ==> s[k] != c
  {
    if |s| == 0 then -1
    else if s[|s| - 1] == c then |s| - 1
    else LastIndexOf(s[..|s| - 1], c)
  }

  /** The `@` at position `a` of `upto` opens an active mention. */
  predicate MentionAt(upto: string, a: int) {
    && 0 <= a < |upto|
    && upto[a] == '@'
    && (a == 0 || Text.IsSpace(upto[a - 1]))
    && forall k :: a < k < |upto| ==> Text.IsMentionChar(upto[k])
  }

  function FindActiveMention(value: string, cursor: nat): (r: Option<Mention>)
    ensures var upto := UpToCursor(value, cursor);
            r.Some? <==> exists a :: MentionAt(upto, a)
    ensures var upto := UpToCursor(value, cursor);
            r.Some? ==> && MentionAt(upto, r.value.start)
                        && r.value.query == upto[r.value.start + 1..]
                        && r.value.end == cursor
  {
    var upto := UpToCursor(value, cursor);
    var at := LastIndexOf(upto, '@');
    if at == -1 then
      assert forall a :: !MentionAt(upto, a);
      None
    else
      var before := if at == 0 then ' ' else upto[at - 1];
      if !Text.IsSpace(before) then
        NoOtherMention(upto, at);
        None
      else
        var query := upto[at + 1..];
        if exists k :: 0 <= k < |query| && !Text.IsMentionChar(query[k]) then
          NoOtherMention(upto, at);
          None
        else
          assert forall k :: at < k < |upto| ==> upto[k] == query[k - at - 1];
          assert MentionAt(upto, at);
          Some(Mention(query, at, cursor))
  }

  /** Only the last `@` can open an active mention, because `@` is not a
      query character. */
  lemma NoOtherMention(upto: string, last: int)
    requires 0 <= last < |upto| && upto[last] == '@'
    requires forall k :: last < k < |upto| ==> upto[k] != '@'
    requires !MentionAt(upto, last)
    ensures forall a :: !MentionAt(upto, a)
  {
  }

  /** The caret just after a fresh `@` opens an empty query. */
  lemma EmptyQueryAtStart(value: string)
    requires |value| >= 1 && value[0] == '@'
    ensures FindActiveMention(value, 1) == Some(Mention("", 0, 1))
  {
    assert MentionAt(UpToCursor(value, 1), 0);
  }

  /** An `@` glued to a preceding word, as in an e-mail address, is no mention. */
  lemma EmailIsNoMention(value: string)
    requires value == "a@b"
    ensures FindActiveMention(value, 3) == None
  {
    assert !Text.IsSpace('a');
    assert forall a :: MentionAt(value, a) ==> a == 1;
  }
}

=== FILE: ordering.dfy ===
/** Ordinal (code point) order on strings and an insertion sort by it. The
    page script and the desktop host sort model ids with `localeCompare`;
    this model fixes that comparator to the plain lexicographic order on
    characters. */
module Ordering {

  /** `a` sorts no later than `b`. */
  predicate Leq(a: string, b: string)
    decreases |a|
  {
    |a| == 0 || (|b| != 0 && (a[0] < b[0] || (a[0] == b[0] && Leq(a[1..], b[1..]))))
  }

  lemma {:induction false} LeqTotal(a: string, b: string)
    ensures Leq(a, b) || Leq(b, a)
    decreases |a|
  {
    if |a| != 0 && |b| != 0 && a[0] == b[0] {
      LeqTotal(a[1..], b[1..]);
    }
  }

  lemma {:induction false} LeqReflexive(a: string)
    ensures Leq(a, a)
    decreases |a|
  {
    if |a| != 0 {
      LeqReflexive(a[1..]);
    }
  }

  lemma {:induction false} LeqTransitive(a: string, b: string, c: string)
    requires Leq(a, b) && Leq(b, c)
    ensures Leq(a, c)
    decreases |a|
  {
    if |a| != 0 && a[0] == b[0] && b[0] == c[0] {
      LeqTransitive(a[1..], b[1..], c[1..]);
    }
  }

  lemma {:induction false} LeqAntisymmetric(a: string, b: string)
    requires Leq(a, b) && Leq(b, a)
    ensures a == b
    decreases |a|
  {
    if |a| != 0 {
      LeqAntisymmetric(a[1..], b[1..]);
      assert a == [a[0]] + a[1..] && b == [b[0]] + b[1..];
    }
  }

  /** Strings that agree up to position `k` and differ there are ordered by
      that character. */
  lemma {:induction false} LeqAtFirstDifference(a: string, b: string, k: nat)
    requires k < |a| && k < |b| && a[..k] == b[..k] && a[k] < b[k]
    ensures Leq(a, b)
    decreases k
  {
    if k > 0 {
      assert a[0] == a[..k][0] == b[..k][0] == b[0];
      assert a[1..][..k - 1] == a[1..k] == a[..k][1..];
      assert b[1..][..k - 1] == b[1..k] == b[..k][1..];
      LeqAtFirstDifference(a[1..], b[1..], k - 1);
    }
  }

  predicate Sorted(s: seq<string>) {
    forall i, j :: 0 <= i < j < |s| ==> Leq(s[i], s[j])
  }

  /** Places `x` before the first element it sorts strictly before. */
  function Insert(x: string, s: seq<string>): (r: seq<string>)
    requires Sorted(s)
    ensures Sorted(r)
    ensures multiset(r) == multiset(s) + multiset{x}
    ensures |r| == |s| + 1
  {
    if |s| == 0 then [x]
    else if Leq(x, s[0]) then
      assert forall j :: 0 < j < |s| ==> Leq(s[0], s[j]);
      forall j | 0 <= j < |s|
        ensures Leq(x, s[j])
      {
        if j > 0 { LeqTransitive(x, s[0], s[j]); }
      }
      [x] + s
    else
      LeqTotal(x, s[0]);
      var rest := Insert(x, s[1..]);
      assert s == [s[0]] + s[1..];
      assert forall k :: 0 <= k < |rest| ==> rest[k] in multiset(s[1..]) + multiset{x};
      forall k | 0 <= k < |rest|
        ensures Leq(s[0], rest[k])
      {
        assert rest[k] in multiset(rest);
        if rest[k] != x {
          assert rest[k] in s[1..];
          var m :| 0 <= m < |s[1..]| && s[1..][m] == rest[k];
          assert s[m + 1] == rest[k];
        }
      }
      [s[0]] + rest
  }

  /** `Array.prototype.sort` with the ordinal comparator: a sorted permutation. */
  function Sort(s: seq<string>): (r: seq<string>)
    ensures Sorted(r)
    ensures multiset(r) == multiset(s)
    ensures |r| == |s|
  {
    if |s| == 0 then []
    else
      assert s == [s[0]] + s[1..];
      Insert(s[0], Sort(s[1..]))
  }

  /** The head of a sorted sequence sorts no later than any of its elements. */
  lemma SortedHeadFirst(a: seq<string>, x: string)
    requires Sorted(a) && x in multiset(a)
    ensures |a| > 0 && Leq(a[0], x)
  {
    var i :| 0 <= i < |a| && a[i] == x;
    if i == 0 { LeqReflexive(x); }
  }

  lemma MultisetTail(a: seq<string>, b: seq<string>)
    requires |a| > 0 && |b| > 0 && a[0] == b[0]
    requires multiset(a) == multiset(b)
    ensures multiset(a[1..]) == multiset(b[1..])
  {
    assert a == [a[0]] + a[1..] && b == [b[0]] + b[1..];
    assert multiset(a[1..]) == multiset(a) - multiset{a[0]};
    assert multiset(b[1..]) == multiset(b) - multiset{b[0]};
  }

  lemma SortedTail(a: seq<string>)
    requires |a| > 0 && Sorted(a)
    ensures Sorted(a[1..])
  {
    assert forall i, j :: 0 <= i < j < |a| - 1 ==> a[1..][i] == a[i + 1] && a[1..][j] == a[j + 1];
  }

  /** Sorting by a total order determines the result: two sorted permutations
      of the same multiset are equal. */
  lemma {:induction false} SortedUnique(a: seq<string>, b: seq<string>)
    requires Sorted(a) && Sorted(b)
    requires multiset(a) == multiset(b)
    ensures a == b
    decreases |a|
  {
    if |a| == 0 {
      assert |multiset(b)| == 0;
    } else {
      assert a[0] in multiset(a) && b[0] in multiset(b) by {
        assert |multiset(b)| == |a|;
      }
      SortedHeadFirst(a, b[0]);
      SortedHeadFirst(b, a[0]);
      LeqAntisymmetric(a[0], b[0]);
      MultisetTail(a, b);
      SortedTail(a);
      SortedTail(b);
      SortedUnique(a[1..], b[1..]);
      assert a == [a[0]] + a[1..] && b == [b[0]] + b[1..];
    }
  }
}

=== FILE: page_state.dfy ===
/** The page's module-level state as one record, and the helpers the page's
    handlers share: filling the model selector, writing and reading the
    local settings record, and re-syncing the settings form. */
module PageState {
  import opened Js
  import KeyField

  datatype Role = System | User | Assistant

  /** One entry of `conversationLog`; replies keep whatever JSON value the
      extractor returned. */
  datatype Turn = Turn(role: Role, content: Json)

  /** One bubble of the visible message log, as finally displayed. */
  datatype Bubble = Bubble(role: Role, text: string)

  /** The model selector: its options (disabled when there are none) and the
      selected value. */
  datatype Select = Select(options: seq<string>, value: string)

  /** The three local-storage entries. A missing entry reads as empty. */
  datatype Stored = Stored(apiKey: string, model: string, models: seq<string>)

  datatype Page = Page(
    key: string,              // cachedApiKey
    model: string,            // cachedModel
    models: seq<string>,      // cachedModels
    fingerprint: string,      // modelsFingerprint: the key the models were fetched with
    log: seq<Turn>,           // conversationLog, sent to the provider
    bubbles: seq<Bubble>,     // the visible transcript
    field: KeyField.Field,    // the API-key input
    select: Select,           // the model selector
    storage: Stored,          // local storage
    fetching: bool,           // isFetchingModels
    awaiting: bool,           // isAwaitingResponse
    composer: string,         // the chat composer's text
    feedback: string          // the settings panel's feedback line
  )

  const SystemMessage := "You are Nimbus, a friendly desktop companion. Keep answers concise and offer to launch applets when helpful."

  /** `populateModelOptions(models, cachedModel)`: with no models the selector is
      disabled and the model kept; otherwise the current model stays selected
      when it is listed, and the first model is selected and adopted when it
      is not. */
  function Populate(p: Page, models: seq<string>): (r: Page)
    ensures r == p.(select := r.select, model := r.model)
    ensures r.select.options == models
    ensures models == [] ==> r.model == p.model && r.select.value == ""
    ensures models != [] ==> r.model in models && r.select.value == r.model
    ensures models != [] && p.model != "" && p.model in models ==> r.model == p.model
    ensures models != [] && (p.model == "" || p.model !in models) ==> r.model == models[0]
  {
    if models == [] then p.(select := Select([], ""))
    else
      var chosen := if p.model != "" && p.model in models then p.model else models[0];
      p.(select := Select(models, chosen), model := chosen)
  }

  /** `persistSettings`: store key, model and models, and take the stored key
      as the fingerprint of the cached models. */
  function Persist(p: Page): (r: Page)
    ensures r == p.(storage := r.storage, fingerprint := r.fingerprint)
    ensures r.storage == Stored(p.key, p.model, p.models) && r.fingerprint == p.key
  {
    p.(storage := Stored(p.key, p.model, p.models), fingerprint := p.key)
  }

  /** `readPersistedSettings`: the cached key, model and models become what
      storage holds, and the stored key is the fingerprint of those models. */
  function ReadPersisted(p: Page): (r: Page)
    ensures r == p.(key := r.key, model := r.model, models := r.models, fingerprint := r.fingerprint)
    ensures r.key == p.storage.apiKey && r.model == p.storage.model && r.models == p.storage.models
    ensures r.fingerprint == p.storage.apiKey
  {
    p.(key := p.storage.apiKey, model := p.storage.model, models := p.storage.models,
       fingerprint := p.storage.apiKey)
  }

  /** Reading back what was just written restores key, model and models. */
  lemma ReadAfterPersist(p: Page)
    ensures ReadPersisted(Persist(p)) == Persist(p)
    ensures ReadPersisted(Persist(p)).key == p.key
    ensures ReadPersisted(Persist(p)).models == p.models
  {
  }

  /** `syncSettingsForm`: reset the key field and refill the selector. */
  function SyncForm(p: Page): (r: Page)
    ensures r.field == KeyField.Reset(p.key)
    ensures r.key == p.key && r.models == p.models && r.log == p.log
    ensures r.feedback == ""
    ensures p.models != [] ==> r.model in p.models
    ensures r.select == (if p.models == [] then Select([], "") else Select(p.models, r.model))
    ensures p.models == [] ==> r.model == p.model
    ensures p.models != [] && p.model != "" && p.model in p.models ==> r.model == p.model
    ensures p.models != [] && (p.model == "" || p.model !in p.models) ==> r.model == p.models[0]
  {
    Populate(p.(field := KeyField.Reset(p.key), feedback := ""), p.models)
  }

  /** Filling the selector twice with the same list changes nothing more. */
  lemma PopulateIdempotent(p: Page, models: seq<string>)
    ensures Populate(Populate(p, models), models) == Populate(p, models)
  {
  }

  /** Re-syncing the form is idempotent. */
  lemma SyncFormIdempotent(p: Page)
    ensures SyncForm(SyncForm(p)) == SyncForm(p)
  {
  }
}

=== FILE: refresh.dfy ===
/** `refreshModels`: the models-catalog refresh of the settings panel, split at
    its `await` into the synchronous start (guards, busy flag) and the
    completion that consumes the provider's answer. */
module ModelRefresh {
  import opened Js
  import Text
  import Http
  import Catalog
  import KeyField
  import opened PageState

  const EnterKeyFirst := "Enter and save an API key before refreshing models."
  const NoGptModels := "No GPT-compatible models were returned for this key."
  const GenericFailure := "Unable to load models. Check your key permissions and network."
  const RejectedKey := "OpenAI rejected this API key. Double-check it in settings and try again."
  const Unavailable := "OpenAI is unavailable right now. Try refreshing models again in a moment."

  /** What the refresh does after its guards: nothing (a refresh is already
      running or there is no key), or fetch the catalog with `key`. */
  datatype Start = Start(page: Page, request: Option<string>)

  /** The page after the refresh and the value `refreshModels` resolves to. */
  datatype Finish = Finish(page: Page, success: bool)

  /** What the catalog request yielded: the filtered, sorted ids, or a failure
      carrying the HTTP status when there was one. */
  datatype Fetched = Listed(models: seq<string>) | Failed(status: Option<int>)

  function BeginRefresh(p: Page): (s: Start)
    ensures p.fetching ==> s == Start(p, None)
    ensures (!p.fetching && KeyField.ResolveActiveKey(p.field, p.key) == "")
            ==> s == Start(p.(feedback := EnterKeyFirst), None)
    ensures s.request.Some? <==> !p.fetching && KeyField.ResolveActiveKey(p.field, p.key) != ""
    ensures s.request.Some? ==> && s.request.value == KeyField.ResolveActiveKey(p.field, p.key)
                                && s.page == p.(fetching := true)
  {
    if p.fetching then Start(p, None)
    else
      var key := KeyField.ResolveActiveKey(p.field, p.key);
      if key == "" then Start(p.(feedback := EnterKeyFirst), None)
      else Start(p.(fetching := true), Some(key))
  }

  /** The catalog request's outcome: a failed response carries its status, and
      a transport failure, an unparseable body or a list that is not an array
      carries none. */
  function FetchCatalog(outcome: Http.Outcome): (f: Fetched)
    ensures outcome.Transport? ==> f == Failed(None)
    ensures outcome.Response? && !Http.IsOk(outcome.status) ==> f == Failed(Some(outcome.status))
    ensures f.Failed? && f.status.Some? ==> outcome.Response? && !Http.IsOk(outcome.status)
    ensures f.Listed? <==> && outcome.Response? && Http.IsOk(outcome.status) && outcome.body.Parsed?
                           && Catalog.FromBody(outcome.body.json).Ok?
    ensures f.Listed? ==> f.models == Catalog.FromBody(outcome.body.json).value
  {
    match outcome
    case Transport(_) => Failed(None)
    case Response(status, body) =>
      if !Http.IsOk(status) then Failed(Some(status))
      else match body
        case Unparseable(_) => Failed(None)
        case Parsed(data) =>
          match Catalog.FromBody(data)
          case Ok(models) => Listed(models)
          case Err(_) => Failed(None)
  }

  /** The feedback line after a failed refresh. */
  function FailureFeedback(status: Option<int>): (m: string)
    ensures status.Some? && (status.value == 401 || status.value == 403) ==> m == RejectedKey
    ensures status.Some? && status.value != 401 && status.value != 403 && status.value >= 500 ==> m == Unavailable
    ensures m == GenericFailure <==> status.None? || (status.value != 401 && status.value != 403 && status.value < 500)
  {
    match status
    case None => GenericFailure
    case Some(s) =>
      if s == 401 || s == 403 then RejectedKey
      else if s >= 500 then Unavailable
      else GenericFailure
  }

  /** The fetched catalog may be written to storage only while the field still
      shows the stored key, masked or revealed. */
  predicate CanPersist(p: Page) {
    p.field.state == KeyField.Masked
    || (p.field.state == KeyField.Revealed && p.field.text == p.key)
  }

  function LoadedFeedback(n: nat): string {
    "Loaded " + Text.NatToString(n) + " models."
  }

  /** The selector's value after `selectedIndex = 0`. */
  function FirstOption(s: Select): (v: string)
    ensures s.options != [] ==> v == s.options[0]
  {
    if s.options == [] then "" else s.options[0]
  }

  /** The completion of a refresh started with `key`. */
  function FinishRefresh(p: Page, key: string, autopick: bool, outcome: Http.Outcome): (f: Finish)
    ensures !f.page.fetching
    ensures f.success <==> FetchCatalog(outcome).Listed? && FetchCatalog(outcome).models != []
    ensures FetchCatalog(outcome).Failed? ==>
              f.page == p.(fetching := false, feedback := FailureFeedback(FetchCatalog(outcome).status))
    ensures FetchCatalog(outcome) == Listed([]) ==>
              && f.page.models == [] && f.page.model == "" && f.page.select == Select([], "")
              && f.page.feedback == NoGptModels
              && f.page.fingerprint == (if CanPersist(p) then p.key else p.fingerprint)
    ensures f.success ==>
              && f.page.models == FetchCatalog(outcome).models
              && f.page.model in f.page.models && f.page.select.value == f.page.model
              && (p.model in f.page.models ==> f.page.model == p.model)
              && f.page.feedback == LoadedFeedback(|f.page.models|)
              && f.page.fingerprint == (if CanPersist(p) then p.key else key)
    ensures FetchCatalog(outcome).Listed? && CanPersist(p) ==>
              f.page.storage == Stored(f.page.key, f.page.model, f.page.models)
    ensures !(FetchCatalog(outcome).Listed? && CanPersist(p)) ==> f.page.storage == p.storage
    ensures f.page.key == p.key && f.page.log == p.log && f.page.field == p.field
    ensures f.success && (p.model == "" || p.model !in f.page.models) ==> f.page.model == f.page.models[0]
    ensures f.success ==> f.page.select.options == f.page.models
    ensures f.page == p.(models := f.page.models, model := f.page.model, select := f.page.select,
                         fingerprint := f.page.fingerprint, storage := f.page.storage,
                         feedback := f.page.feedback, fetching := false)
  {
    match FetchCatalog(outcome)
    case Failed(status) =>
      Finish(p.(fetching := false, feedback := FailureFeedback(status)), false)
    case Listed(next) =>
      if next == [] then
        var q := Populate(p.(feedback := NoGptModels, models := []), []).(model := "");
        var q := if CanPersist(p) then Persist(q) else q;
        Finish(q.(fetching := false), false)
      else
        var q := Populate(p.(models := next, fingerprint := key), next);
        var q := q.(feedback := LoadedFeedback(|next|));
        var q := if autopick && q.model == "" && q.select.options != []
                 then q.(select := q.select.(value := FirstOption(q.select)), model := FirstOption(q.select))
                 else q;
        var q := if CanPersist(p) then Persist(q) else q;
        Finish(q.(fetching := false), true)
  }

  /** `refreshModels(options)` with the catalog request answered by `outcome`. */
  function Refresh(p: Page, autopick: bool, outcome: Http.Outcome): (f: Finish)
    ensures !f.success ==> f.page.models == p.models || f.page.models == []
    ensures f.success ==> f.page.model in f.page.models && !f.page.fetching
    ensures BeginRefresh(p).request.None? ==> f == Finish(BeginRefresh(p).page, false)
    ensures BeginRefresh(p).request.Some? ==>
              f == FinishRefresh(BeginRefresh(p).page, BeginRefresh(p).request.value, autopick, outcome)
    ensures !p.fetching ==> !f.page.fetching
  {
    var s := BeginRefresh(p);
    match s.request
    case None => Finish(s.page, false)
    case Some(key) => FinishRefresh(s.page, key, autopick, outcome)
  }

  /** A listed model is never empty: every id contains `gpt`. */
  lemma ListedModelsNonEmpty(outcome: Http.Outcome, m: string)
    requires FetchCatalog(outcome).Listed? && m in FetchCatalog(outcome).models
    ensures m != ""
  {
    var models := FetchCatalog(outcome).models;
    var k :| 0 <= k < |models| && models[k] == m;
    assert Text.ContainsGpt(models[k]);
  }

  /** The `autopick` option never changes the outcome: when any model was
      listed, filling the selector has already chosen one. */
  lemma AutopickIrrelevant(p: Page, key: string, outcome: Http.Outcome)
    ensures FinishRefresh(p, key, true, outcome) == FinishRefresh(p, key, false, outcome)
  {
    var fetched := FetchCatalog(outcome);
    if fetched.Listed? && fetched.models != [] {
      var q := Populate(p.(models := fetched.models, fingerprint := key), fetched.models);
      ListedModelsNonEmpty(outcome, q.model);
    }
  }

  /** A busy refresh does nothing at all. */
  lemma BusyRefreshIsNoOp(p: Page, autopick: bool, outcome: Http.Outcome)
    requires p.fetching
    ensures Refresh(p, autopick, outcome) == Finish(p, false)
  {
  }

  /** A refresh from a page whose storage is in step with it, with the field
      still showing the stored key, leaves storage in step with the page,
      whether the request succeeds, fails or is never made. */
  lemma RefreshKeepsStorageInSync(p: Page, autopick: bool, outcome: Http.Outcome)
    requires CanPersist(p) && p.storage == Stored(p.key, p.model, p.models)
    ensures var q := Refresh(p, autopick, outcome).page;
            q.storage == Stored(q.key, q.model, q.models)
  {
    var s := BeginRefresh(p);
    if s.request.Some? {
      assert CanPersist(s.page);
    }
  }

  /** After a successful refresh of a masked field, what storage holds reads
      back as the page's own key, model and catalog. */
  lemma RefreshThenReadBack(p: Page, autopick: bool, outcome: Http.Outcome)
    requires p.field.state == KeyField.Masked
    requires Refresh(p, autopick, outcome).success
    ensures var q := Refresh(p, autopick, outcome).page;
            ReadPersisted(q) == q && q.storage.models == q.models
  {
  }
}

=== FILE: reply.dfy ===
/** Reply-text extraction from a loosely shaped chat response. The page and
    the host run the same precedence; the host additionally accepts
    `summary_text` blocks. The rules, first match wins:
      1. the `output` list's accepted text blocks, joined with newlines;
      2. `choices[0].message.content`, when truthy;
      3. `choices[0].text`, when truthy;
      4. `content`, when it is a string (even an empty one);
      5. `result`, when it is a non-empty string;
    and otherwise the empty string. */
module Reply {
  import opened Js
  import Text

  /** Block types the page accepts. */
  const PageBlockTypes: set<string> := {"output_text", "text"}

  /** Block types the host accepts. */
  const HostBlockTypes: set<string> := {"output_text", "text", "summary_text"}

  /** A content block contributes its text when its type is accepted and its
      `text` is a string. */
  predicate Accepted(block: Json, accepted: set<string>) {
    var t := OptMember(block, "type");
    t.Str? && t.s in accepted && OptMember(block, "text").Str?
  }

  /** Texts of the accepted blocks of one content list, in order. */
  function BlockChunks(blocks: seq<Json>, accepted: set<string>): (chunks: seq<string>)
    ensures |chunks| <= |blocks|
    ensures |chunks| == 0 <==> forall k :: 0 <= k < |blocks| ==> !Accepted(blocks[k], accepted)
  {
    if |blocks| == 0 then []
    else
      var rest := BlockChunks(blocks[1..], accepted);
      assert forall k :: 1 <= k < |blocks| ==> blocks[k] == blocks[1..][k - 1];
      (if Accepted(blocks[0], accepted) then [OptMember(blocks[0], "text").s] else []) + rest
  }

  /** `item.content ?? item.contents` of an object item, when it is an array. */
  function ItemBlocks(item: Json): (blocks: seq<Json>)
    ensures !item.Obj? ==> blocks == []
  {
    if !item.Obj? then []
    else
      var contents := Coalesce(OptMember(item, "content"), OptMember(item, "contents"));
      if contents.Arr? then contents.items else []
  }

  /** Texts of the accepted blocks of every output item, items in order. */
  function OutputChunks(items: seq<Json>, accepted: set<string>): (chunks: seq<string>)
    ensures |chunks| == 0 <==>
              forall i, k :: 0 <= i < |items| && 0 <= k < |ItemBlocks(items[i])| ==>
                !Accepted(ItemBlocks(items[i])[k], accepted)
  {
    if |items| == 0 then []
    else
      var rest := OutputChunks(items[1..], accepted);
      assert forall i :: 1 <= i < |items| ==> items[i] == items[1..][i - 1];
      BlockChunks(ItemBlocks(items[0]), accepted) + rest
  }

  /** The chunks rule 1 collects from a payload. */
  function Chunks(payload: Json, accepted: set<string>): seq<string> {
    var output := OptMember(payload, "output");
    if output.Arr? then OutputChunks(output.items, accepted) else []
  }

  /** `payload.choices[0]`, when `choices` is an array. */
  function FirstChoice(payload: Json): Json {
    At(OptMember(payload, "choices"), 0)
  }

  /** The rules in order; `None` when a rule does not apply. */
  function OutputRule(payload: Json, accepted: set<string>): Option<Json> {
    var chunks := Chunks(payload, accepted);
    if |chunks| > 0 then Some(Str(Text.Join(chunks, "\n"))) else None
  }

  function MessageRule(payload: Json): Option<Json> {
    var content := OptMember(OptMember(FirstChoice(payload), "message"), "content");
    if OptMember(payload, "choices").Arr? && Truthy(content) then Some(content) else None
  }

  function ChoiceTextRule(payload: Json): Option<Json> {
    var text := OptMember(FirstChoice(payload), "text");
    if OptMember(payload, "choices").Arr? && Truthy(text) then Some(text) else None
  }

  function ContentRule(payload: Json): Option<Json> {
    var content := OptMember(payload, "content");
    if content.Str? then Some(content) else None
  }

  function ResultRule(payload: Json): Option<Json> {
    var result := OptMember(payload, "result");
    if result.Str? && result.s != "" then Some(result) else None
  }

  /** The five rules in precedence order. */
  function Rules(payload: Json, accepted: set<string>): (rules: seq<Option<Json>>)
    ensures |rules| == 5
  {
    [OutputRule(payload, accepted), MessageRule(payload), ChoiceTextRule(payload),
     ContentRule(payload), ResultRule(payload)]
  }

  /** `extractTextFromResponse`, following the control flow of nimbus.js and main.js. */
  function Extract(payload: Json, accepted: set<string>): (r: Json)
    ensures !(payload.Obj? || payload.Arr?) ==> r == Str("")
    ensures var rules := Rules(payload, accepted);
            forall k :: 0 <= k < |rules| && rules[k].Some? && (forall m :: 0 <= m < k ==> rules[m].None?)
              ==> r == rules[k].value
    ensures var rules := Rules(payload, accepted);
            (forall k :: 0 <= k < |rules| ==> rules[k].None?) ==> r == Str("")
    ensures !Truthy(r) ==> r == Str("")
  {
    if !(payload.Obj? || payload.Arr?) then Str("")
    else
      var rules := Rules(payload, accepted);
      assert rules[0] == OutputRule(payload, accepted) && rules[1] == MessageRule(payload)
        && rules[2] == ChoiceTextRule(payload) && rules[3] == ContentRule(payload)
        && rules[4] == ResultRule(payload);
      var output := OptMember(payload, "output");
      var chunks := if output.Arr? then OutputChunks(output.items, accepted) else [];
      if output.Arr? && |chunks| > 0 then Str(Text.Join(chunks, "\n"))
      else
        var choices := OptMember(payload, "choices");
        var choice := At(choices, 0);
        var message := OptMember(OptMember(choice, "message"), "content");
        var text := OptMember(choice, "text");
        if choices.Arr? && Truthy(message) then message
        else if choices.Arr? && Truthy(text) then text
        else if OptMember(payload, "content").Str? then OptMember(payload, "content")
        else
          var result := OptMember(payload, "result");
          if Truthy(result) && result.Str? then result else Str("")
  }

  function PageExtract(payload: Json): Json {
    Extract(payload, PageBlockTypes)
  }

  function HostExtract(payload: Json): Json {
    Extract(payload, HostBlockTypes)
  }

  /** A block the host accepts and the page does not. */
  predicate SummaryBlock(block: Json) {
    Accepted(block, HostBlockTypes) && !Accepted(block, PageBlockTypes)
  }

  lemma {:induction false} BlockChunksAgree(blocks: seq<Json>)
    requires forall k :: 0 <= k < |blocks| ==> !SummaryBlock(blocks[k])
    ensures BlockChunks(blocks, PageBlockTypes) == BlockChunks(blocks, HostBlockTypes)
  {
    if |blocks| != 0 {
      BlockChunksAgree(blocks[1..]);
    }
  }

  lemma {:induction false} OutputChunksAgree(items: seq<Json>)
    requires forall i, k :: 0 <= i < |items| && 0 <= k < |ItemBlocks(items[i])| ==>
               !SummaryBlock(ItemBlocks(items[i])[k])
    ensures OutputChunks(items, PageBlockTypes) == OutputChunks(items, HostBlockTypes)
  {
    if |items| != 0 {
      BlockChunksAgree(ItemBlocks(items[0]));
      assert forall i :: 1 <= i < |items| ==> items[i] == items[1..][i - 1];
      OutputChunksAgree(items[1..]);
    }
  }

  /** Without `summary_text` blocks the host and the page extract the same reply. */
  lemma HostAgreesWithPage(payload: Json)
    requires var output := OptMember(payload, "output");
             output.Arr? ==>
               forall i, k :: 0 <= i < |output.items| && 0 <= k < |ItemBlocks(output.items[i])| ==>
                 !SummaryBlock(ItemBlocks(output.items[i])[k])
    ensures HostExtract(payload) == PageExtract(payload)
  {
    var output := OptMember(payload, "output");
    if output.Arr? {
      OutputChunksAgree(output.items);
    }
  }

  /** Whenever the page's output rule fires, so does the host's: accepting more
      block types never lets a later rule take over. */
  lemma {:induction false} HostOutputRuleWider(payload: Json)
    requires OutputRule(payload, PageBlockTypes).Some?
    ensures OutputRule(payload, HostBlockTypes).Some?
  {
    var output := OptMember(payload, "output");
    var i, k :| 0 <= i < |output.items| && 0 <= k < |ItemBlocks(output.items[i])|
                && Accepted(ItemBlocks(output.items[i])[k], PageBlockTypes);
    assert Accepted(ItemBlocks(output.items[i])[k], HostBlockTypes);
  }

  /** A summary block alone yields a host reply and no page reply. */
  lemma SummaryOnlyHost(payload: Json)
    requires payload == Obj(map["output" := Arr([Obj(map["content" := Arr([
               Obj(map["type" := Str("summary_text"), "text" := Str("Hi")])])])])])
    ensures HostExtract(payload) == Str("Hi")
    ensures PageExtract(payload) == Str("")
  {
    var block := Obj(map["type" := Str("summary_text"), "text" := Str("Hi")]);
    var item := Obj(map["content" := Arr([block])]);
    assert ItemBlocks(item) == [block];
    assert BlockChunks([block], HostBlockTypes) == ["Hi"];
    assert BlockChunks([block], PageBlockTypes) == [];
    assert OutputChunks([item], HostBlockTypes) == ["Hi"];
    assert OutputChunks([item], PageBlockTypes) == [];
  }

  /** The two worked examples: the output-list shape and the choice-list shape. */
  lemma OutputExample(payload: Json)
    requires payload == Obj(map["output" := Arr([Obj(map["content" := Arr([
               Obj(map["type" := Str("output_text"), "text" := Str("Hi")])])])])])
    ensures PageExtract(payload) == Str("Hi")
  {
    var block := Obj(map["type" := Str("output_text"), "text" := Str("Hi")]);
    var item := Obj(map["content" := Arr([block])]);
    assert ItemBlocks(item) == [block];
    assert BlockChunks([block], PageBlockTypes) == ["Hi"];
    assert OutputChunks([item], PageBlockTypes) == ["Hi"];
  }

  lemma ChoiceExample(payload: Json)
    requires payload == Obj(map["choices" := Arr([Obj(map["message" := Obj(map["content" := Str("Hi")])])])])
    ensures PageExtract(payload) == Str("Hi")
  {
  }

  /** A single empty output block yields the empty reply even when a choice
      carries text: rule 1 fires on a non-empty chunk list, not on non-empty text. */
  lemma EmptyChunkShadowsChoices(payload: Json)
    requires payload == Obj(map[
               "output" := Arr([Obj(map["content" := Arr([Obj(map["type" := Str("text"), "text" := Str("")])])])]),
               "choices" := Arr([Obj(map["text" := Str("Hi")])])])
    ensures PageExtract(payload) == Str("")
  {
    var block := Obj(map["type" := Str("text"), "text" := Str("")]);
    var item := Obj(map["content" := Arr([block])]);
    assert ItemBlocks(item) == [block];
    assert BlockChunks([block], PageBlockTypes) == [""];
    assert OutputChunks([item], PageBlockTypes) == [""];
  }
}

=== FILE: settings_form.dfy ===
/** The settings panel's form: opening it, choosing a model, and
    `handleSettingsSubmit`, which derives the key and model to keep, clears
    what a key change invalidates, saves, and fetches the catalog when it is
    missing or stale. */
module SettingsForm {
  import opened Js
  import Text
  import Http
  import KeyField
  import opened PageState
  import ModelRefresh
  import Catalog

  const KeyRemoved := "API key removed. Nimbus will stay offline until you add a new key."
  const FetchingModels := "Fetching models…"
  const SettingsSaved := "Settings saved."
  const SelectModel := "Select a model to finish setup. Nimbus will stay here until you do."

  /** The page after the submit, and whether the panel closes. */
  datatype Submitted = Submitted(page: Page, closes: bool)

  /** The key a submit keeps: the stored key while masked, nothing when the
      field is blank, the trimmed text otherwise, except that typing the
      placeholder itself keeps the stored key. */
  function DeriveKey(f: KeyField.Field, stored: string): (key: string)
    ensures f.state == KeyField.Masked ==> key == stored
    ensures f.state != KeyField.Masked && Text.AllSpace(f.text) ==> key == ""
    ensures (f.state != KeyField.Masked && !Text.AllSpace(f.text) && Text.Trim(f.text) != KeyField.MaskedKeyValue)
            ==> key == Text.Trim(f.text) && key != ""
    ensures (f.state != KeyField.Masked && Text.Trim(f.text) == KeyField.MaskedKeyValue) ==> key == stored
  {
    if f.state == KeyField.Masked then stored
    else
      var raw := Text.Trim(f.text);
      if raw == "" then ""
      else if raw != KeyField.MaskedKeyValue then raw
      else stored
  }

  /** The model a submit keeps, read off the selector. */
  function DeriveModel(p: Page, keyChanged: bool): (model: string)
    ensures p.select.options != [] ==> model == p.select.value
    ensures p.select.options == [] && keyChanged ==> model == ""
    ensures p.select.options == [] && !keyChanged ==> model == p.model
  {
    if p.select.options != [] && p.select.value != "" then p.select.value
    else if p.select.options != [] then ""
    else if keyChanged then ""
    else p.model
  }

  /** The synchronous part of the submit, up to and including the save. */
  function Apply(p: Page): (q: Page)
    ensures q.key == DeriveKey(p.field, p.key)
    ensures q.field == KeyField.Reset(q.key)
    ensures q.storage == Stored(q.key, q.model, q.models) && q.fingerprint == q.key
    ensures q.key != p.key && (q.key == "" || p.fingerprint != q.key) ==> q.models == [] && q.model == ""
    ensures !(q.key != p.key && (q.key == "" || p.fingerprint != q.key)) ==> q.models == p.models
    ensures q.models != [] ==> q.model in q.models
    ensures q.log == p.log && q.bubbles == p.bubbles && q.feedback == ""
    ensures var key := DeriveKey(p.field, p.key);
            var m := DeriveModel(p, key != p.key);
            !(key != p.key && (key == "" || p.fingerprint != key)) ==>
              && (q.models == [] ==> q.model == m)
              && (q.models != [] && m != "" && m in q.models ==> q.model == m)
              && (q.models != [] && (m == "" || m !in q.models) ==> q.model == q.models[0])
    ensures q.select == (if q.models == [] then Select([], "") else Select(q.models, q.model))
    ensures q == p.(key := q.key, model := q.model, models := q.models, fingerprint := q.fingerprint,
                    field := q.field, select := q.select, storage := q.storage, feedback := "")
  {
    var key := DeriveKey(p.field, p.key);
    var changed := key != p.key;
    var model := DeriveModel(p, changed);
    var stale := changed && (key == "" || p.fingerprint != key);
    var models := if stale then [] else p.models;
    var model := if stale then "" else model;
    Persist(SyncForm(p.(key := key, model := model, models := models)))
  }

  /** `handleSettingsSubmit`, with the catalog request it may make answered by
      `outcome`. */
  function Submit(p: Page, outcome: Http.Outcome): (s: Submitted)
    ensures var key := DeriveKey(p.field, p.key);
            && s.page.key == key
            && (key == "" ==> s == Submitted(Apply(p).(feedback := KeyRemoved, log := []), true))
            && (key != p.key ==> s.page.log == [])
            && (key != "" && key == p.key ==> s.page.log == p.log)
    ensures s.closes ==> s.page.key == "" || s.page.model != ""
    ensures s.closes && s.page.key != "" ==> s.page.feedback == SettingsSaved
    ensures !s.closes ==> s.page.key != ""
    ensures !s.closes && s.page.model == "" ==> s.page.feedback == SelectModel
    ensures var key := DeriveKey(p.field, p.key);
            key != "" && key == p.key && Apply(p).models != [] ==>
              && s.closes == (Apply(p).model != "")
              && s.page == Apply(p).(feedback := s.page.feedback)
    ensures var key := DeriveKey(p.field, p.key);
            var q := if key != p.key then Apply(p).(log := []) else Apply(p);
            var f := ModelRefresh.Refresh(q.(feedback := FetchingModels), true, outcome);
            key != "" && (Apply(p).models == [] || key != p.key) ==>
              && (s.closes <==> f.success && f.page.model != "")
              && s.page == f.page.(feedback := s.page.feedback)
  {
    var q := Apply(p);
    if q.key == "" then Submitted(q.(feedback := KeyRemoved, log := []), true)
    else
      var q := if q.key != p.key then q.(log := []) else q;
      var (page, shouldClose) :=
        if q.models == [] || q.key != p.key then
          var f := ModelRefresh.Refresh(q.(feedback := FetchingModels), true, outcome);
          (f.page, f.success && f.page.model != "")
        else (q, true);
      if shouldClose && page.model != "" then Submitted(page.(feedback := SettingsSaved), true)
      else if page.model == "" then Submitted(page.(feedback := SelectModel), false)
      else Submitted(page, false)
  }

  /** `openSettings`: reload the stored settings, reset the form, and fetch the
      catalog when a key is stored without one. */
  function Open(p: Page, outcome: Http.Outcome): (q: Page)
    ensures q.key == p.storage.apiKey && q.field == KeyField.Reset(p.storage.apiKey)
    ensures p.storage.apiKey == "" || p.storage.models != [] ==> q == SyncForm(ReadPersisted(p))
    ensures p.storage.apiKey != "" && p.storage.models == [] ==>
              q == ModelRefresh.Refresh(SyncForm(ReadPersisted(p)), SyncForm(ReadPersisted(p)).model == "", outcome).page
  {
    var q := SyncForm(ReadPersisted(p));
    if q.key != "" && q.models == [] then ModelRefresh.Refresh(q, q.model == "", outcome).page
    else q
  }

  /** Away from the placeholder corner case, the key a submit keeps is the key
      the panel would use right now, except that a blank field removes the key
      where the panel would fall back to the stored one. */
  lemma DeriveAgreesWithResolve(f: KeyField.Field, stored: string)
    requires Text.Trim(f.text) != KeyField.MaskedKeyValue || f.state == KeyField.Masked
    ensures f.state == KeyField.Masked || !Text.AllSpace(f.text)
            ==> DeriveKey(f, stored) == KeyField.ResolveActiveKey(f, stored)
    ensures f.state != KeyField.Masked && Text.AllSpace(f.text) ==> DeriveKey(f, stored) == ""
  {
  }

  /** Every submit leaves storage holding the page's key, model and catalog:
      the save before the catalog request covers a failed request, and a
      fetched catalog is saved because the form is masked again by then. */
  lemma SubmitLeavesStorageInSync(p: Page, outcome: Http.Outcome)
    ensures var q := Submit(p, outcome).page;
            q.storage == Stored(q.key, q.model, q.models)
  {
    var q := Apply(p);
    var s := Submit(p, outcome);
    if q.key != "" {
      assert q.field == KeyField.MaskedField;
      var q := if q.key != p.key then q.(log := []) else q;
      if q.models == [] || q.key != p.key {
        var f := ModelRefresh.Refresh(q.(feedback := FetchingModels), true, outcome);
        ModelRefresh.RefreshKeepsStorageInSync(q.(feedback := FetchingModels), true, outcome);
        assert s.page.(feedback := f.page.feedback) == f.page;
      } else {
        assert s.page.(feedback := q.feedback) == q;
      }
    }
  }

  /** Submitting the panel unchanged after everything is set up only closes it. */
  lemma ResubmitClosesQuietly(p: Page, outcome: Http.Outcome)
    requires p.field == KeyField.MaskedField && p.key != ""
    requires p.models != [] && p.select == Select(p.models, p.model) && p.model in p.models && p.model != ""
    ensures Submit(p, outcome).closes
    ensures Submit(p, outcome).page.log == p.log
    ensures Submit(p, outcome).page.model == p.model && Submit(p, outcome).page.models == p.models
  {
  }

  /** The catalog of the worked example below. */
  lemma OneModelCatalog(body: Json)
    requires body == Obj(map["data" := Arr([Obj(map["id" := Str("gpt-4o")])])])
    ensures Catalog.FromBody(body) == Ok(["gpt-4o"])
  {
    var entries := [Obj(map["id" := Str("gpt-4o")])];
    assert Catalog.EntryList(body) == Ok(entries);
    assert Text.GptAt("gpt-4o", 0);
    assert Catalog.GptIds(entries[1..]) == [];
    assert Catalog.GptIds(entries) == ["gpt-4o"];
    var m := Catalog.FromBody(body).value;
    assert multiset(m) == multiset(["gpt-4o"]);
    assert |m| == 1;
    assert m[0] in multiset(m);
  }

  lemma ExampleKey(f: KeyField.Field)
    requires f == KeyField.Field(KeyField.Editing, "sk-test", false, true)
    ensures DeriveKey(f, "") == "sk-test"
  {
    assert Text.Trim("sk-test") == "sk-test" by {
      assert !Text.IsSpace('s') && !Text.IsSpace('t');
    }
  }

  /** A new key whose catalog lists one model ends up with that model chosen. */
  lemma FirstKeyPicksOnlyModel(p: Page, body: Json)
    requires p.key == "" && p.models == [] && p.select == Select([], "") && !p.fetching
    requires p.field == KeyField.Field(KeyField.Editing, "sk-test", false, true)
    requires body == Obj(map["data" := Arr([Obj(map["id" := Str("gpt-4o")])])])
    ensures var s := Submit(p, Http.Response(200, Http.Parsed(body)));
            s.closes && s.page.key == "sk-test" && s.page.models == ["gpt-4o"] && s.page.model == "gpt-4o"
  {
    ExampleKey(p.field);
    var outcome := Http.Response(200, Http.Parsed(body));
    OneModelCatalog(body);
    assert ModelRefresh.FetchCatalog(outcome) == ModelRefresh.Listed(["gpt-4o"]);
    var q := Apply(p);
    assert q.key == "sk-test" && q.models == [] && !q.fetching;
    var f := ModelRefresh.Refresh(q.(log := []).(feedback := FetchingModels), true, outcome);
    assert f.success && f.page.models == ["gpt-4o"];
  }
}

=== FILE: text.dfy ===
/** Character classes and string helpers shared by the page and the host:
    the ECMAScript white-space set (what `trim()` strips and `\s` matches), the
    `[\w-]` class, the case-insensitive `/gpt/` test, `Array.prototype.join`
    and decimal rendering of integers. */
module Text {

  /** ECMAScript WhiteSpace and LineTerminator code points. */
  predicate IsSpace(c: char) {
    || c == ' ' || c == '\t' || c == '\n' || c == '\r'
    || c == '\U{000B}' || c == '\U{000C}' || c == '\U{00A0}' || c == '\U{FEFF}'
    || c == '\U{1680}' || ('\U{2000}' <= c <= '\U{200A}')
    || c == '\U{2028}' || c == '\U{2029}' || c == '\U{202F}' || c == '\U{205F}'
    || c == '\U{3000}'
  }

  predicate AllSpace(s: string) {
    forall k :: 0 <= k < |s| ==> IsSpace(s[k])
  }

  /** `\w`: ASCII letters, digits and underscore. */
  predicate IsWordChar(c: char) {
    ('a' <= c <= 'z') || ('A' <= c <= 'Z') || ('0' <= c <= '9') || c == '_'
  }

  /** The class `[\w-]` accepted in a mention query. */
  predicate IsMentionChar(c: char) {
    IsWordChar(c) || c == '-'
  }

  /** `r` occurs in `s` starting at position `i`. */
  predicate InfixAt(r: string, s: string, i: int) {
    0 <= i <= |s| - |r| && s[i..i + |r|] == r
  }

  ghost predicate IsInfix(r: string, s: string) {
    exists i :: InfixAt(r, s, i)
  }

  /** Number of white-space characters at the start of `s`. */
  function LeadingSpace(s: string): (n: nat)
    ensures n <= |s|
    ensures AllSpace(s[..n])
    ensures n < |s| ==> !IsSpace(s[n])
  {
    if |s| == 0 || !IsSpace(s[0]) then 0
    else
      var n := 1 + LeadingSpace(s[1..]);
      assert forall k :: 1 <= k < n ==> s[k] == s[1..][k - 1];
      n
  }

  /** Number of white-space characters at the end of `s`. */
  function TrailingSpace(s: string): (n: nat)
    ensures n <= |s|
    ensures AllSpace(s[|s| - n..])
    ensures n < |s| ==> !IsSpace(s[|s| - 1 - n])
  {
    if |s| == 0 || !IsSpace(s[|s| - 1]) then 0
    else
      var n := 1 + TrailingSpace(s[..|s| - 1]);
      assert forall k :: |s| - n <= k < |s| - 1 ==> s[k] == s[..|s| - 1][k];
      n
  }

  /** `String.prototype.trim`. */
  function Trim(s: string): (r: string)
    ensures |r| <= |s|
    ensures IsInfix(r, s)
    ensures r == "" <==> AllSpace(s)
    ensures r != "" ==> !IsSpace(r[0]) && !IsSpace(r[|r| - 1])
  {
    var a := LeadingSpace(s);
    if a == |s| then
      assert InfixAt("", s, 0);
      ""
    else
      var b := TrailingSpace(s);
      var r := s[a..|s| - b];
      assert InfixAt(r, s, a);
      assert r[0] == s[a] && r[|r| - 1] == s[|s| - 1 - b];
      r
  }

  /** Trimming strips exactly the white space around a core that neither
      starts nor ends with white space. */
  lemma TrimSurrounded(pre: string, core: string, post: string)
    requires AllSpace(pre) && AllSpace(post)
    requires core != "" && !IsSpace(core[0]) && !IsSpace(core[|core| - 1])
    ensures Trim(pre + core + post) == core
  {
    var s := pre + core + post;
    var a := LeadingSpace(s);
    assert s[|pre|] == core[0];
    assert a == |pre|;
    var b := TrailingSpace(s);
    assert s[|s| - 1 - |post|] == core[|core| - 1];
    assert b == |post|;
    assert s[a..|s| - b] == core;
  }

  /** A text is blank, as nimbus.js and main.js test it, when its trimmed
      form is empty. */
  lemma TrimBlank(s: string)
    ensures Trim(s) == "" <==> AllSpace(s)
  {
  }

  predicate IsG(c: char) { c == 'g' || c == 'G' }
  predicate IsP(c: char) { c == 'p' || c == 'P' }
  predicate IsT(c: char) { c == 't' || c == 'T' }

  /** `gpt`, ignoring case, starts at position `i` of `s`. */
  predicate GptAt(s: string, i: int) {
    0 <= i && i + 3 <= |s| && IsG(s[i]) && IsP(s[i + 1]) && IsT(s[i + 2])
  }

  /** `/gpt/i.test(s)`, scanning from the left. */
  function ContainsGpt(s: string): (r: bool)
    ensures r <==> exists i :: GptAt(s, i)
    ensures r ==> |s| >= 3
  {
    if |s| < 3 then
      assert forall i :: !GptAt(s, i);
      false
    else if GptAt(s, 0) then true
    else
      var r := ContainsGpt(s[1..]);
      assert forall i :: GptAt(s[1..], i) <==> GptAt(s, i + 1);
      assert r ==> exists i :: GptAt(s, i) by {
        if r {
          var i :| GptAt(s[1..], i);
          assert GptAt(s, i + 1);
        }
      }
      assert (exists i :: GptAt(s, i)) ==> r by {
        if exists i :: GptAt(s, i) {
          var i :| GptAt(s, i);
          assert i != 0;
          assert GptAt(s[1..], i - 1);
        }
      }
      r
  }

  /** `parts.join(sep)`. */
  function Join(parts: seq<string>, sep: string): (r: string)
    ensures |parts| == 1 ==> r == parts[0]
    ensures |parts| == 0 ==> r == ""
  {
    if |parts| == 0 then ""
    else if |parts| == 1 then parts[0]
    else parts[0] + sep + Join(parts[1..], sep)
  }

  function DigitChar(d: nat): (c: char)
    requires d < 10
    ensures '0' <= c <= '9'
  {
    ['0', '1', '2', '3', '4', '5', '6', '7', '8', '9'][d]
  }

  /** Decimal digits of `n`, most significant first. */
  function NatToString(n: nat): (r: string)
    ensures |r| >= 1
    ensures forall k :: 0 <= k < |r| ==> '0' <= r[k] <= '9'
    ensures (r[0] == '0') <==> n == 0
  {
    if n < 10 then [DigitChar(n)]
    else NatToString(n / 10) + [DigitChar(n % 10)]
  }

  /** Decimal rendering of an integer, `-` for negatives, as `String(n)` does
      for integers below 10^21. */
  function IntToString(n: int): string {
    if n < 0 then "-" + NatToString(-n) else NatToString(n)
  }
}
